=== FILE: README.md ===
# Shader filter plugins and saved event locations, modelled in Dafny

This project models the logic of four RPG Maker MV plugins:

- **SAN_ShaderFilter**. Three parts are modelled:
  - `GLSLFilterParamMap`, a registry from filter id to filter parameter object that is backed by a plain JavaScript object.
  - The per-frame sprite reconciliation. It drops shader filters whose parameter left the registry. It starts one filter load per parameter that no filter covers. On load, it appends the new filter just before a single trailing dummy filter.
  - A `GLSLFilter` loading its vertex and fragment shader sources through two loaders, and firing its own `onLoad` when the second source arrives.
- **SAN_ShaderFilterCharaHeatHaze** and **SAN_ShaderFilterScanLine**. These are the effect parameter objects: constructor defaults, a time accumulator and a fade machine. The fade machine has four states, and its rate moves by `1 / fadeFrame` per frame, clamped to [0, 1]. Both files carry the same fade code, so it is modelled once (module `Fade`). The heat-haze parameter also resolves the character it follows, and removes itself from the screen's registry when that character changes.
- **YEP_SaveEventLocations**. Four parts are modelled:
  - The note-tag scan.
  - The store of saved `(x, y, direction)` triples keyed by `(mapId, eventId)`.
  - The gates that decide when an event saves or loads its location.
  - The bypass flag that "Set Event Location" (event command 203) raises.

Everything is immutable data and pure functions.

- JavaScript `undefined`, `null` and objects are modelled as `JsValues.Value`. Objects compare by identity (`Obj(id)`).
- A thrown TypeError becomes `Result.Failure` or `Option.None`.
- Parameter registries keep JavaScript's own-property key order:
  - canonical array-index keys come first, in ascending order;
  - other keys follow in insertion order.
- Fade rates and times are exact reals.
- Files: `wrappers.dfy`, `js_values.dfy`, `seqs.dfy` (sequence vocabulary), `param_map.dfy`, `sprite_filters.dfy`, `shader_load.dfy`, `fade.dfy`, `heat_haze.dfy`, `scan_line.dfy`, `notetags.dfy`, `save_event_locations.dfy`.

## Model

| member | source | states |
|---|---|---|
| ParamMaps.Empty | js/plugins/SAN_ShaderFilter.js:945-947 | a new registry is empty and well formed (distinct keys in own-property order) |
| ParamMaps.Clear | js/plugins/SAN_ShaderFilter.js:950-952 | after `clear()`, `keys()` and `values()` are empty and `get`/`has` find nothing for any key |
| ParamMaps.Get | js/plugins/SAN_ShaderFilter.js:965-967 | an absent key reads `undefined`; in a well-formed registry a stored key reads exactly its stored value; a defined result is the value of an entry under that key |
| ParamMaps.Set | js/plugins/SAN_ShaderFilter.js:960-962 | `get(k)` is `v` afterwards and every other key reads as before; the key set gains `k`; overwriting keeps key order; a new non-index key goes last and an index key goes to its numeric place; well-formedness is preserved |
| ParamMaps.Delete | js/plugins/SAN_ShaderFilter.js:955-957 | `get(k)` is `undefined` afterwards, `k` is gone, and every other key reads as before |
| ParamMaps.KeyOf | js/plugins/SAN_ShaderFilter.js:985-993 | `key(v)` is undefined exactly when no entry holds `v`; otherwise it is the key of the first entry, in entry order, holding exactly `v` |
| ParamMaps.Remove | js/plugins/SAN_ShaderFilter.js:996-999 | corrected `remove(v)`: no change when `v` is not stored; otherwise exactly one key holding `v` is deleted and every other key reads as before |
| ParamMaps.RemoveAsWritten | js/plugins/SAN_ShaderFilter.js:996-999 | `remove(v)` as written: when `v` is not stored, it deletes the key "undefined"; when `v` is stored, it agrees with the corrected `remove` |
| ParamMaps.Keys | js/plugins/SAN_ShaderFilter.js:975-977 | `keys()` lists one key per entry, in entry order (which `Valid` makes JavaScript's own-property order), and a key is listed exactly when it is stored |
| ParamMaps.Values | js/plugins/SAN_ShaderFilter.js:980-982 | `values()` lists one value per entry, as many as `keys()`; in a well-formed registry the value at each position is what `get` returns for the key at the same position of `keys()` |
| ParamMaps.Has | js/plugins/SAN_ShaderFilter.js:970-972 | `has(k)` holds exactly when `get(k)` is an object, and is false for a key that is not stored |
| ParamMaps.HasIffStoredObject | js/plugins/SAN_ShaderFilter.js:970-972 | `has(k)` holds exactly when an entry under `k` holds an object, so it is false for null, undefined and absent keys |
| ParamMaps.SetGetHas | js/plugins/SAN_ShaderFilter.js:960-972 | `get` after `set` returns the stored value; `has` then follows its truthiness, and is unchanged for other keys |
| ParamMaps.RemoveStoredValue | js/plugins/SAN_ShaderFilter.js:985-999 | when `v` is stored only under `k`, `remove(v)` is `delete(k)` |
| ParamMaps.RemoveAsWrittenDropsUndefinedKey | js/plugins/SAN_ShaderFilter.js:996-999 | concrete input on which the as-written `remove` deletes an unrelated entry and the corrected one does not |
| ParamMaps.IndexKeysComeFirst | js/plugins/SAN_ShaderFilter.js:975-977 | `keys()` lists an array-index key before an ordinary key inserted earlier, and overwriting keeps that order |
| SpriteFilters.GlslFilters | js/plugins/SAN_ShaderFilter.js:607-616 | the shader filters of `filters`, none when `filters` is unset |
| SpriteFilters.GlslFilterParams | js/plugins/SAN_ShaderFilter.js:587-604 | a value is listed exactly when it is the parameter object of an active or a loading shader filter |
| SpriteFilters.Clean | js/plugins/SAN_ShaderFilter.js:531-545 | every non-shader filter (the dummy included) keeps its multiplicity; a shader filter is kept, as often as it occurred, exactly when its parameter is still a map value; the result is a subsequence, so relative order is kept; unset `filters` is left alone |
| SpriteFilters.AssortFrom | js/plugins/SAN_ShaderFilter.js:548-563 | the assort loop leaves `filters` alone, only appends to the loading list, and uses one fresh id per filter it starts |
| SpriteFilters.AssortFromFails | js/plugins/SAN_ShaderFilter.js:556-557 | the loop throws exactly when it meets a value that is uncovered and is not an object (it has no `filterClass`) |
| SpriteFilters.AssortFromStarts | js/plugins/SAN_ShaderFilter.js:552-561 | the parameters of the filters started are exactly the values not covered by the parameter list taken before the loop, in map order |
| SpriteFilters.AssortFromIds | js/plugins/SAN_ShaderFilter.js:558-561 | the filters started are new objects with consecutive fresh identities |
| SpriteFilters.Assort | js/plugins/SAN_ShaderFilter.js:548-563 | fails exactly on an uncovered non-object value; otherwise `filters` is untouched and the old loading list is a prefix of the new one |
| SpriteFilters.AssortCoversEveryValue | js/plugins/SAN_ShaderFilter.js:548-563 | after assorting, every map value is the parameter of an active or a loading filter |
| SpriteFilters.AssortOnePerUncovered | js/plugins/SAN_ShaderFilter.js:548-563 | with distinct map values, exactly one new filter per value no filter covered, and none for covered values |
| SpriteFilters.AllCoveredAssortsNothing | js/plugins/SAN_ShaderFilter.js:552-554 | when every value is covered the assort loop changes nothing |
| SpriteFilters.OnFilterLoaded | js/plugins/SAN_ShaderFilter.js:566-579 | afterwards `filters` holds exactly one dummy, which is last, with the loaded filter just before it; the filters before those two are a subsequence of the old list, so their relative order is kept; every other filter keeps its multiplicity; the loaded filter leaves the loading list, and the other loading filters stay |
| SpriteFilters.LoadKeepsCoverage | js/plugins/SAN_ShaderFilter.js:566-579 | finishing the load of a loading filter leaves the set of covered parameters unchanged |
| SpriteFilters.Refresh | js/plugins/SAN_ShaderFilter.js:522-528 | without a registry nothing changes; otherwise every map value is covered afterwards and every active shader filter's parameter is a map value |
| SpriteFilters.RefreshIsIdempotent | js/plugins/SAN_ShaderFilter.js:522-563 | a second reconciliation against the same map changes nothing |
| SpriteFilters.CleanKeepsLiveShaders | js/plugins/SAN_ShaderFilter.js:531-545 | a shader filter survives cleaning exactly when its parameter is still a map value |
| SpriteFilters.BattlerRefresh | js/plugins/SAN_ShaderFilter.js:663-677 | without a battler, `filters` becomes empty; a battler without a parameter map leaves the sprite unchanged; otherwise the battler's registry drives the refresh and every one of its values ends up covered |
| ShaderLoad.GenerateURL | js/plugins/SAN_ShaderFilter.js:744-749 | no URL exactly for an empty name; otherwise 'glsl/', then the name, then the extension |
| ShaderLoad.URLsAreDistinct | js/plugins/SAN_ShaderFilter.js:744-749 | different non-empty names with the same extension give different URLs |
| ShaderLoad.New | js/plugins/SAN_ShaderFilter.js:694-702 | a new filter and both of its loaders start not ready, the vertex loader holds the vertex URL and the fragment loader the fragment URL, and no handler has run |
| ShaderLoad.LoadLoader | js/plugins/SAN_ShaderFilter.js:881-893 | a loader without a URL becomes ready at once without running handlers; one with a URL waits for its request |
| ShaderLoad.Load | js/plugins/SAN_ShaderFilter.js:777-780 | `load()` starts both loaders and runs no handler synchronously |
| ShaderLoad.FilterOnLoad | js/plugins/SAN_ShaderFilter.js:766-774 | the filter's load handlers run, and only then is the filter ready |
| ShaderLoad.Complete | js/plugins/SAN_ShaderFilter.js:895-903 | a completed request runs its loader's handler first and only then marks the loader ready; `onLoad` runs, once, exactly when the other loader is already ready |
| ShaderLoad.JoinFiresOnce | js/plugins/SAN_ShaderFilter.js:752-780 | in either completion order: the load handlers run exactly once if some URL exists and never otherwise; the filter ends ready exactly then; `onLoad` always finds the other loader ready; readiness comes right after the handlers |
| ShaderLoad.FragmentOnlyFilterLoads | js/plugins/SAN_ShaderFilter.js:730-749 | a filter with an empty vertex name and a fragment name (as in the heat-haze and scan-line filters) loads when its fragment source arrives |
| Fade.FadingInStep | js/plugins/SAN_ShaderFilterCharaHeatHaze.js:633-654 | fading in settles in 'fadedIn' at rate 1 exactly when `rate + 1/fadeFrame` reaches 1; otherwise the rate becomes `rate + 1/fadeFrame`, which is an increase when `fadeFrame > 0`; a `fadeFrame` of 0 settles at once |
| Fade.FadingOutStep | js/plugins/SAN_ShaderFilterCharaHeatHaze.js:642-654 | fading out settles in 'fadedOut' at rate 0 exactly when `rate - 1/fadeFrame` reaches 0; otherwise the rate becomes `rate - 1/fadeFrame`, which is a decrease when `fadeFrame > 0`; a `fadeFrame` of 0 settles at once |
| Fade.Step | js/plugins/SAN_ShaderFilterCharaHeatHaze.js:624-631 | fading in takes exactly one fading-in step and fading out exactly one fading-out step; every other state is left as it is; a rate in [0, 1] stays there; a fading state stays fading or settles on its side |
| Fade.FadeIn | js/plugins/SAN_ShaderFilterCharaHeatHaze.js:656-659 | `fadeIn()` changes only the state, to 'fadingIn' |
| Fade.FadeOut | js/plugins/SAN_ShaderFilterCharaHeatHaze.js:661-664 | `fadeOut()` changes only the state, to 'fadingOut' |
| Fade.Show | js/plugins/SAN_ShaderFilterCharaHeatHaze.js:666-670 | `show()` sets rate 1 and 'fadedIn' together, a state no frame moves |
| Fade.Hide | js/plugins/SAN_ShaderFilterCharaHeatHaze.js:672-676 | `hide()` sets rate 0 and 'fadedOut' together, a state no frame moves |
| Fade.RateStaysInUnit | js/plugins/SAN_ShaderFilterCharaHeatHaze.js:624-676 | with a non-negative `fadeFrame`, no sequence of frames, fade-ins, fade-outs, shows and hides moves the rate out of [0, 1] |
| Fade.SettledIsFixedPoint | js/plugins/SAN_ShaderFilterCharaHeatHaze.js:624-631 | 'fadedIn', 'fadedOut' and unknown states stay unchanged over any number of frames |
| Fade.FadingInReaches | js/plugins/SAN_ShaderFilterCharaHeatHaze.js:633-653 | fading in has settled at rate 1 after `n` frames once `n` gains reach 1 |
| Fade.FadingOutReaches | js/plugins/SAN_ShaderFilterCharaHeatHaze.js:642-653 | fading out has settled at rate 0 after `n` frames once `n` gains reach 0 |
| Fade.FadingInCompletes | js/plugins/SAN_ShaderFilterCharaHeatHaze.js:633-653 | from any rate in [0, 1], 'fadingIn' reaches 'fadedIn' with rate exactly 1 within ⌈fadeFrame⌉ frames |
| Fade.FadingOutCompletes | js/plugins/SAN_ShaderFilterCharaHeatHaze.js:642-653 | from any rate in [0, 1], 'fadingOut' reaches 'fadedOut' with rate exactly 0 within ⌈fadeFrame⌉ frames |
| Fade.FadingInFromZeroIsLinear | js/plugins/SAN_ShaderFilterCharaHeatHaze.js:633-653 | from rate 0 the rate after `n` frames is `n / fadeFrame`, still fading, for every `n` below ⌈fadeFrame⌉, so the bound is tight |
| Fade.ZeroFramesCompleteAtOnce | js/plugins/SAN_ShaderFilterCharaHeatHaze.js:633-653 | with `fadeFrame` 0 the gain is infinite and either fade completes in one frame |
| Fade.FadeInThenFramesShows | js/plugins/SAN_ShaderFilterCharaHeatHaze.js:633-670 | `fadeIn()` followed by ⌈fadeFrame⌉ frames ends exactly where `show()` does |
| Fade.FadeOutThenFramesHides | js/plugins/SAN_ShaderFilterCharaHeatHaze.js:642-676 | `fadeOut()` followed by ⌈fadeFrame⌉ frames ends exactly where `hide()` does |
| CharaHeatHaze.CharacterOf | js/plugins/SAN_ShaderFilterCharaHeatHaze.js:589-596 | 'player' gives the player; 'event' gives the event with that id, or undefined; 'follower' gives follower `charaId - 1`, or undefined; any other type gives null |
| CharaHeatHaze.New | js/plugins/SAN_ShaderFilterCharaHeatHaze.js:501-524 | time and fade rate start at 0, and the captured character is the one the settings resolve to |
| CharaHeatHaze.OmittedOptionsTakeDefaults | js/plugins/SAN_ShaderFilterCharaHeatHaze.js:501-524 | each option left out of any options object takes its own default, whatever the others are: speed 1, fadeFrame 60, 'fadedOut', 'player', charaId 1, pitch 1, radii 24 and 72, strength 1 and colour (2, 1, 1); no options object gives all defaults |
| CharaHeatHaze.GivenOptionsAreKept | js/plugins/SAN_ShaderFilterCharaHeatHaze.js:501-524 | every option that is present is used as given |
| CharaHeatHaze.Update | js/plugins/SAN_ShaderFilterCharaHeatHaze.js:599-621 | time grows by speed/60 and the fade takes one step, whatever else happens; the screen registry is untouched while the character is the same; a parameter that the screen's registry does not hold and whose character changed deletes that registry's "undefined" entry, as the registry's `remove` is written |
| CharaHeatHaze.UnregisteredParamDeletesUndefinedEntry | js/plugins/SAN_ShaderFilterCharaHeatHaze.js:607-611 | the `remove` defect reaches the screen: with a changed character and no entry for the parameter in the screen's registry, the "undefined" entry goes and every other entry stays |
| CharaHeatHaze.ChangedCharacterRemovesSelf | js/plugins/SAN_ShaderFilterCharaHeatHaze.js:607-611 | when the character changed, the one registry entry holding this parameter is removed and every other entry is unchanged |
| CharaHeatHaze.FreshParamStaysRegistered | js/plugins/SAN_ShaderFilterCharaHeatHaze.js:599-612 | a parameter whose world does not change never removes itself |
| CharaHeatHaze.SameWorldKeepsScreen | js/plugins/SAN_ShaderFilterCharaHeatHaze.js:607-611 | while the character is unchanged, any number of updates leave the screen registry alone |
| CharaHeatHaze.FramesAdvanceTimeAndFade | js/plugins/SAN_ShaderFilterCharaHeatHaze.js:599-621 | after `n` updates time has grown by `n * speed / 60` and the fade has taken exactly `n` steps |
| ScanLine.New | js/plugins/SAN_ShaderFilterScanLine.js:295-305 | time and fade rate start at 0; each option is used when given and takes its default (speed 1, fadeFrame 60, 'fadedOut') when omitted; no options object gives all defaults |
| ScanLine.OmittedOptionsTakeDefaults | js/plugins/SAN_ShaderFilterScanLine.js:295-305 | each option left out of any options object takes its own default (speed 1, fadeFrame 60, 'fadedOut'), whatever the others are; no options object gives all defaults |
| ScanLine.GivenOptionsAreKept | js/plugins/SAN_ShaderFilterScanLine.js:295-305 | every option that is given is used as given |
| ScanLine.Update | js/plugins/SAN_ShaderFilterScanLine.js:323-337 | time grows by speed/60, then exactly one fade step is taken |
| ScanLine.CommandsDriveFade | js/plugins/SAN_ShaderFilterScanLine.js:323-391 | commands and frames on the parameter move its fade exactly as on the shared fade machine |
| ScanLine.RateStaysInUnit | js/plugins/SAN_ShaderFilterScanLine.js:340-391 | with a non-negative `fadeFrame` the rate stays in [0, 1] across every operation |
| ScanLine.FramesAdvanceTimeAndFade | js/plugins/SAN_ShaderFilterScanLine.js:323-337 | after `n` updates time has grown by `n * speed / 60` and the fade has taken exactly `n` steps |
| ScanLine.FadesCompleteWithinFadeFrame | js/plugins/SAN_ShaderFilterScanLine.js:349-370 | 'fadingIn' ends in 'fadedIn' at rate 1, and 'fadingOut' ends in 'fadedOut' at rate 0, within ⌈fadeFrame⌉ updates |
| ScanLine.SettledFadeStaysPut | js/plugins/SAN_ShaderFilterScanLine.js:340-346 | settled or unknown fade states are unchanged by any number of updates |
| Notetags.ScanLines | js/plugins/YEP_SaveEventLocations.js:95-101 | the flag ends true exactly when some line matches one of the two tags |
| Notetags.NoteFlagIsSubstringTest | js/plugins/YEP_SaveEventLocations.js:93-102 | the line-by-line scan equals a case-insensitive substring test for either tag on the whole note |
| Notetags.SplitPreservesTag | js/plugins/YEP_SaveEventLocations.js:94-101 | for a tag without line breaks, some line of `split(/[\r\n]+/)` contains it exactly when the note does |
| Notetags.LineMatchIsNoteMatch | js/plugins/YEP_SaveEventLocations.js:94-101 | a match inside a line is a match inside the note |
| Notetags.NoteMatchIsLineMatch | js/plugins/YEP_SaveEventLocations.js:94-101 | a match inside the note lies within one line |
| SaveEventLocations.NewSystem | js/plugins/YEP_SaveEventLocations.js:108-116 | the store starts empty |
| SaveEventLocations.EnsureStore | js/plugins/YEP_SaveEventLocations.js:118-121 | lazy re-creation leaves a defined store alone and turns an undefined one into an empty store |
| SaveEventLocations.SavedEventLocations | js/plugins/YEP_SaveEventLocations.js:118-121 | the getter returns the store, created first if undefined |
| SaveEventLocations.IsSavedEventLocation | js/plugins/YEP_SaveEventLocations.js:123-126 | true exactly when a triple is stored under (mapId, eventId) |
| SaveEventLocations.GetSaved | js/plugins/YEP_SaveEventLocations.js:128-141 | the stored triple, or the TypeError of indexing a missing entry |
| SaveEventLocations.GetSavedEventX | js/plugins/YEP_SaveEventLocations.js:128-131 | the stored x, or a TypeError when no triple is stored |
| SaveEventLocations.GetSavedEventY | js/plugins/YEP_SaveEventLocations.js:133-136 | the stored y, or a TypeError when no triple is stored |
| SaveEventLocations.GetSavedEventDir | js/plugins/YEP_SaveEventLocations.js:138-141 | the stored direction, or a TypeError when no triple is stored |
| SaveEventLocations.SaveEventLocation | js/plugins/YEP_SaveEventLocations.js:143-150 | the event's (x, y, direction) is stored under (mapId, eventId); every other entry is unchanged |
| SaveEventLocations.ProcessMapNotetags | js/plugins/YEP_SaveEventLocations.js:80-91 | no map data or an empty note: untouched; otherwise the map flag becomes whether the note contains either tag in any case |
| SaveEventLocations.ProcessEventNotetags | js/plugins/YEP_SaveEventLocations.js:93-102 | the event flag becomes whether the note contains either tag in any case |
| SaveEventLocations.IsSaveLocation | js/plugins/YEP_SaveEventLocations.js:190-196 | true when the map flag is set, and otherwise the event's own flag, read from its note on first use and cached |
| SaveEventLocations.SaveLocation | js/plugins/YEP_SaveEventLocations.js:198-201 | when the event saves, its current triple is stored under its key; otherwise nothing changes |
| SaveEventLocations.IsLoadLocation | js/plugins/YEP_SaveEventLocations.js:203-206 | true exactly when the event saves its location and a triple is stored for it |
| SaveEventLocations.LoadLocation | js/plugins/YEP_SaveEventLocations.js:208-215 | when loading applies, position and direction become the stored triple; otherwise the event stays as it is |
| SaveEventLocations.OriginalLocate | js/plugins/YEP_SaveEventLocations.js:178-182 | the engine's placement sets x and y only |
| SaveEventLocations.Locate | js/plugins/YEP_SaveEventLocations.js:178-182 | the note is re-read; with the bypass raised the event lands at (x, y) and the store is untouched; otherwise a stored location, if one applies, wins |
| SaveEventLocations.SetDirection | js/plugins/YEP_SaveEventLocations.js:219 | the engine's turn sets the direction only |
| SaveEventLocations.ResetLocation | js/plugins/YEP_SaveEventLocations.js:217-221 | the event goes back to its map-data position and original direction, and that location is stored if the event saves |
| SaveEventLocations.ResetAllEventLocations | js/plugins/YEP_SaveEventLocations.js:166-171 | every event is reset to its map-data position and original direction; no stored entry disappears |
| SaveEventLocations.PluginCommand | js/plugins/YEP_SaveEventLocations.js:229-232 | any other command changes nothing; 'ResetAllEventLocations' puts every event back at its map-data position and original direction and touches no other part of the game state besides the store |
| SaveEventLocations.Command203 | js/plugins/YEP_SaveEventLocations.js:236-241 | the original command runs with the bypass raised; the flag is clear afterwards and the original's result is returned |
| SaveEventLocations.StoreStartsEmpty | js/plugins/YEP_SaveEventLocations.js:108-126 | nothing is stored at first; an undefined store reads as empty and the first access creates it |
| SaveEventLocations.SaveThenGet | js/plugins/YEP_SaveEventLocations.js:123-150 | after saving an event, `isSavedEventLocation` is true and the getters return its x, y and direction |
| SaveEventLocations.LastWriteWins | js/plugins/YEP_SaveEventLocations.js:143-150 | saving the same key twice keeps only the second triple |
| SaveEventLocations.SaveGateFollowsNote | js/plugins/YEP_SaveEventLocations.js:190-196 | whether an event saves is the map flag, and otherwise whether its note carries the tag |
| SaveEventLocations.SaveThenLocateRestores | js/plugins/YEP_SaveEventLocations.js:178-215 | an event that saved its location is put back there, facing the saved direction, by any later `locate` outside the bypass |
| SaveEventLocations.SetEventLocationIsNotOverridden | js/plugins/YEP_SaveEventLocations.js:236-241 | "Set Event Location" places the event where the command says, even when a location is stored, and clears the flag |
| SaveEventLocations.LocateWithoutBypassLoads | js/plugins/YEP_SaveEventLocations.js:178-182 | outside the bypass, a stored location overrides the requested position |
| SaveEventLocations.ResetAllSavesEveryLocation | js/plugins/YEP_SaveEventLocations.js:166-171 | with distinct event ids, after a reset-all every saving event's stored triple is its map-data position and original direction |
| SaveEventLocations.ResetAllKeepsOthers | js/plugins/YEP_SaveEventLocations.js:166-171 | resetting events with other keys leaves an entry as it was |

## Left out

- Loading shader text. The loaders' XMLHttpRequest, its error handler and the thrown error are out. Request completion is an abstract event, and a failed request is never delivered.
- PIXI. Filter construction (`setupFilter`), uniforms and `filter.update()` are out. These are calls into the graphics library.
- `GLSLFilterParamMap.update` (js/plugins/SAN_ShaderFilter.js:1002-1008), the per-frame loop that calls `update()` on each value of a `values()` snapshot, is out: the model does not iterate a registry and dispatch to its values. The heat-haze and scan-line parameter updates it would call are modelled by `CharaHeatHaze.Update` and `ScanLine.Update`.
- Sprite geometry and the scene-graph lookups. So are the `initialize`/`update` hooks on the engine's classes, beyond the sprite reconciliation they call.
- Floating point. Rates and times are exact reals, so IEEE-754 rounding is not modelled. A `fadeFrame` of 0 is modelled as the infinite gain JavaScript computes. Negative `fadeFrame` values are allowed, but the bound lemmas assume a non-negative one.
- Fade.RateStaysInUnit and ScanLine.RateStaysInUnit: stated for `fadeFrame >= 0`. A negative `fadeFrame` makes the gain negative, and the rate then moves out of [0, 1], as it would in JavaScript.
- Options. An option is either given or omitted. An option given as `undefined`, or with a value of the wrong type, is not modelled.
- Registry keys are strings. `Object.prototype` members and the `__proto__` key are not modelled.
- Primitive registry values. A value is `undefined`, `null` or an object, so numbers, strings and booleans stored with `set` cannot be expressed. For those `has` would follow JavaScript truthiness (false for `0` and `""`, true for `"x"`), and assorting would throw, since a primitive has no `filterClass`. The plugin only stores filter parameter objects.
- Objects without `filterClass`. Every object value is taken to be a filter parameter, so assorting never throws on an object. An object without a `filterClass` method would throw a TypeError there. The plugin only stores filter parameter objects.
- Save-event-locations keys. The store key `[mapId, eventId]` is a pair. JavaScript turns it into the string "mapId,eventId", which is the same pair for integer ids.
- Engine calls. `setPosition`, the original `locate` and `setDirection` are plain field updates. The engine's own guard in `setDirection` (direction fix, zero direction) is not modelled. `Game_Map.setup` only calls `processSELNotetags1` when map data exists, and that is modelled by `ProcessMapNotetags` taking an optional map.
- `updateMove` (YEP_SaveEventLocations.js:184-188) runs the engine's movement and then `saveLocation()`. Only `SaveLocation` is modelled.
- Events live on a loaded map, so the event gates read map data that is always present.
- The original `command203` is the parameter `original` of `Command203`. `PluginCommand` omits the original plugin-command handler (js/plugins/YEP_SaveEventLocations.js:230), which belongs to other plugins.

## Findings

| source | as written | input that shows it | evidently intended | confidence | as-written member | corrected member |
|---|---|---|---|---|---|---|
| js/plugins/SAN_ShaderFilter.js:996-999 | `remove(value)` calls `delete(key(value))`; when no entry holds `value`, `key` yields `undefined` and `delete` removes the property named "undefined". The heat-haze parameter's character check (js/plugins/SAN_ShaderFilterCharaHeatHaze.js:607-611) reaches this path when its character has changed while the screen's registry holds no entry for it; since only a registry's per-frame loop (js/plugins/SAN_ShaderFilter.js:1002-1008) calls its `update()`, that needs another registry, a character's, a picture's or a battler's (js/plugins/SAN_ShaderFilter.js:341-475), to hold it. A parameter registered only on the screen deletes its own key on the first such frame and is not updated again | a registry with `set("undefined", p)`; then `remove(q)` for any `q` not stored deletes `p`'s entry | removing a value that is not stored leaves the registry unchanged | not executed | ParamMaps.RemoveAsWritten | ParamMaps.Remove |

=== FILE: fade.dfy ===
/**
 * The fade state machine shared, line for line, by the heat-haze and the
 * scan-line filter parameters: a fade rate in [0, 1] that moves by
 * `1 / fadeFrame` per frame while fading, a fade state string, and the
 * instant `show`/`hide` commands.
 *
 * Rates are exact reals. A `fadeFrame` of 0 makes JavaScript's gain
 * `1 / 0` infinite, so a fading step then completes at once; the model
 * says so explicitly rather than dividing by zero.
 */
module Fade {

  const FADING_IN: string := "fadingIn"
  const FADED_IN: string := "fadedIn"
  const FADING_OUT: string := "fadingOut"
  const FADED_OUT: string := "fadedOut"

  /** `_fadeRate`, `_fadeState` and `_fadeFrame` of a filter parameter. */
  datatype Fade = Fade(rate: real, state: string, frames: real)

  predicate InUnit(x: real) {
    0.0 <= x <= 1.0
  }

  /** `x` rounded up to an integer. */
  function Ceil(x: real): (n: int)
    ensures n as real - 1.0 < x <= n as real
  {
    if x.Floor as real == x then x.Floor else x.Floor + 1
  }

  /** `updateFadingIn`: add the gain; on reaching 1, clamp and settle in 'fadedIn'. */
  function FadingInStep(f: Fade): (r: Fade)
    ensures r.frames == f.frames
    ensures r.state == FADED_IN <==> r.rate == 1.0 || f.state == FADED_IN
    ensures r.state != FADED_IN ==> r.state == f.state && r.rate < 1.0
    ensures f.frames > 0.0 && r.state != FADED_IN ==> r.rate > f.rate
    ensures f.frames != 0.0 && f.state != FADED_IN ==> (r.state == FADED_IN <==> f.rate + 1.0 / f.frames >= 1.0)
    ensures f.frames != 0.0 && r.state != FADED_IN ==> r.rate == f.rate + 1.0 / f.frames
    ensures f.frames == 0.0 ==> r.state == FADED_IN && r.rate == 1.0
  {
    if f.frames == 0.0 then
      f.(rate := 1.0, state := FADED_IN)
    else
      var rate := f.rate + 1.0 / f.frames;
      if rate >= 1.0 then f.(rate := 1.0, state := FADED_IN) else f.(rate := rate)
  }

  /** `updateFadingOut`: subtract the gain; on reaching 0, clamp and settle in 'fadedOut'. */
  function FadingOutStep(f: Fade): (r: Fade)
    ensures r.frames == f.frames
    ensures r.state == FADED_OUT <==> r.rate == 0.0 || f.state == FADED_OUT
    ensures r.state != FADED_OUT ==> r.state == f.state && r.rate > 0.0
    ensures f.frames > 0.0 && r.state != FADED_OUT ==> r.rate < f.rate
    ensures f.frames != 0.0 && f.state != FADED_OUT ==> (r.state == FADED_OUT <==> f.rate - 1.0 / f.frames <= 0.0)
    ensures f.frames != 0.0 && r.state != FADED_OUT ==> r.rate == f.rate - 1.0 / f.frames
    ensures f.frames == 0.0 ==> r.state == FADED_OUT && r.rate == 0.0
  {
    if f.frames == 0.0 then
      f.(rate := 0.0, state := FADED_OUT)
    else
      var rate := f.rate - 1.0 / f.frames;
      if rate <= 0.0 then f.(rate := 0.0, state := FADED_OUT) else f.(rate := rate)
  }

  /** `updateFade`: one frame of fading; any other state is left as it is. */
  function Step(f: Fade): (r: Fade)
    ensures r.frames == f.frames
    ensures f.state != FADING_IN && f.state != FADING_OUT ==> r == f
    ensures f.frames >= 0.0 && InUnit(f.rate) ==> InUnit(r.rate)
    ensures f.state == FADING_IN ==> r.state in {FADING_IN, FADED_IN}
    ensures f.state == FADING_OUT ==> r.state in {FADING_OUT, FADED_OUT}
    ensures f.state == FADING_IN ==> r == FadingInStep(f)
    ensures f.state == FADING_OUT ==> r == FadingOutStep(f)
  {
    if f.state == FADING_IN then FadingInStep(f)
    else if f.state == FADING_OUT then FadingOutStep(f)
    else f
  }

  /** `n` consecutive frames of fading. */
  function StepN(f: Fade, n: nat): (r: Fade)
    ensures r.frames == f.frames
    decreases n
  {
    if n == 0 then f else StepN(Step(f), n - 1)
  }

  /** `fadeIn()`: start fading in from the current rate. */
  function FadeIn(f: Fade): (r: Fade)
    ensures r.state == FADING_IN && r.rate == f.rate && r.frames == f.frames
  {
    f.(state := FADING_IN)
  }

  /** `fadeOut()`: start fading out from the current rate. */
  function FadeOut(f: Fade): (r: Fade)
    ensures r.state == FADING_OUT && r.rate == f.rate && r.frames == f.frames
  {
    f.(state := FADING_OUT)
  }

  /** `show()`: fully visible at once. */
  function Show(f: Fade): (r: Fade)
    ensures r.rate == 1.0 && r.state == FADED_IN && r.frames == f.frames
    ensures Step(r) == r
  {
    f.(rate := 1.0, state := FADED_IN)
  }

  /** `hide()`: fully hidden at once. */
  function Hide(f: Fade): (r: Fade)
    ensures r.rate == 0.0 && r.state == FADED_OUT && r.frames == f.frames
    ensures Step(r) == r
  {
    f.(rate := 0.0, state := FADED_OUT)
  }

  /** The commands a script may issue on a parameter, and the per-frame update. */
  datatype Command = Update | FadeInCmd | FadeOutCmd | ShowCmd | HideCmd

  function Apply(f: Fade, c: Command): Fade {
    match c
    case Update => Step(f)
    case FadeInCmd => FadeIn(f)
    case FadeOutCmd => FadeOut(f)
    case ShowCmd => Show(f)
    case HideCmd => Hide(f)
  }

  function ApplyAll(f: Fade, cs: seq<Command>): Fade
    decreases |cs|
  {
    if |cs| == 0 then f else ApplyAll(Apply(f, cs[0]), cs[1..])
  }

  // ---------------------------------------------------------------------------
  // Properties

  /** With a non-negative frame count, no sequence of commands and frames moves the rate out of [0, 1]. */
  lemma {:induction false} RateStaysInUnit(f: Fade, cs: seq<Command>)
    requires f.frames >= 0.0 && InUnit(f.rate)
    ensures InUnit(ApplyAll(f, cs).rate)
    ensures ApplyAll(f, cs).frames == f.frames
    decreases |cs|
  {
    if |cs| > 0 {
      RateStaysInUnit(Apply(f, cs[0]), cs[1..]);
    }
  }

  /** Settled and unrecognised states are fixed points of any number of frames. */
  lemma {:induction false} SettledIsFixedPoint(f: Fade, n: nat)
    requires f.state != FADING_IN && f.state != FADING_OUT
    ensures StepN(f, n) == f
    decreases n
  {
    if n > 0 {
      SettledIsFixedPoint(Step(f), n - 1);
    }
  }

  lemma DivisionSplit(k: nat, frames: real)
    requires frames > 0.0
    ensures (k + 1) as real / frames == k as real / frames + 1.0 / frames
  {
  }

  /** Fading in finishes within `n` frames once `n` gains cover the distance to 1. */
  lemma {:induction false} FadingInReaches(f: Fade, n: nat)
    requires f.state == FADING_IN && f.frames > 0.0
    requires n >= 1 && f.rate + n as real / f.frames >= 1.0
    ensures StepN(f, n).state == FADED_IN && StepN(f, n).rate == 1.0
    decreases n
  {
    var g := Step(f);
    if g.state == FADED_IN {
      SettledIsFixedPoint(g, n - 1);
    } else {
      assert g.rate == f.rate + 1.0 / f.frames;
      DivisionSplit(n - 1, f.frames);
      FadingInReaches(g, n - 1);
    }
  }

  /** Fading out finishes within `n` frames once `n` gains cover the distance to 0. */
  lemma {:induction false} FadingOutReaches(f: Fade, n: nat)
    requires f.state == FADING_OUT && f.frames > 0.0
    requires n >= 1 && f.rate - n as real / f.frames <= 0.0
    ensures StepN(f, n).state == FADED_OUT && StepN(f, n).rate == 0.0
    decreases n
  {
    var g := Step(f);
    if g.state == FADED_OUT {
      SettledIsFixedPoint(g, n - 1);
    } else {
      assert g.rate == f.rate - 1.0 / f.frames;
      DivisionSplit(n - 1, f.frames);
      FadingOutReaches(g, n - 1);
    }
  }

  lemma BelowOne(a: real, frames: real)
    requires 0.0 < frames && a < frames
    ensures a / frames < 1.0
  {
    assert (a / frames) * frames == a;
  }

  lemma CeilCoversUnit(frames: real)
    requires frames > 0.0
    ensures Ceil(frames) >= 1
    ensures Ceil(frames) as real / frames >= 1.0
  {
    var c := Ceil(frames) as real;
    assert c >= frames;
    assert c / frames >= frames / frames;
  }

  /** From any rate in [0, 1], 'fadingIn' settles in 'fadedIn' at rate 1 within ⌈fadeFrame⌉ frames. */
  lemma FadingInCompletes(f: Fade)
    requires f.state == FADING_IN && f.frames > 0.0 && InUnit(f.rate)
    ensures StepN(f, Ceil(f.frames)).state == FADED_IN
    ensures StepN(f, Ceil(f.frames)).rate == 1.0
  {
    CeilCoversUnit(f.frames);
    FadingInReaches(f, Ceil(f.frames));
  }

  /** From any rate in [0, 1], 'fadingOut' settles in 'fadedOut' at rate 0 within ⌈fadeFrame⌉ frames. */
  lemma FadingOutCompletes(f: Fade)
    requires f.state == FADING_OUT && f.frames > 0.0 && InUnit(f.rate)
    ensures StepN(f, Ceil(f.frames)).state == FADED_OUT
    ensures StepN(f, Ceil(f.frames)).rate == 0.0
  {
    CeilCoversUnit(f.frames);
    FadingOutReaches(f, Ceil(f.frames));
  }

  /** Fading in from 0 is still under way after every frame before the ⌈fadeFrame⌉-th: the bound is tight. */
  lemma {:induction false} FadingInFromZeroIsLinear(f: Fade, n: nat)
    requires f.state == FADING_IN && f.frames > 0.0 && f.rate == 0.0
    requires n < Ceil(f.frames)
    ensures StepN(f, n).state == FADING_IN
    ensures StepN(f, n).rate == n as real / f.frames
  {
    if n > 0 {
      FadingInFromZeroIsLinear(f, n - 1);
      var g := StepN(f, n - 1);
      StepNSplit(f, n - 1);
      DivisionSplit(n - 1, f.frames);
      BelowOne(n as real, f.frames);
    }
  }

  lemma {:induction false} StepNSplit(f: Fade, n: nat)
    ensures StepN(f, n + 1) == Step(StepN(f, n))
    decreases n
  {
    if n > 0 {
      StepNSplit(Step(f), n - 1);
    }
  }

  /** With `fadeFrame` 0 the infinite gain completes either fade in a single frame. */
  lemma ZeroFramesCompleteAtOnce(f: Fade)
    requires f.frames == 0.0
    ensures f.state == FADING_IN ==> Step(f).state == FADED_IN && Step(f).rate == 1.0
    ensures f.state == FADING_OUT ==> Step(f).state == FADED_OUT && Step(f).rate == 0.0
  {
  }

  /** `fadeIn()` followed by ⌈fadeFrame⌉ frames shows the effect fully, whatever came before. */
  lemma FadeInThenFramesShows(f: Fade)
    requires f.frames > 0.0 && InUnit(f.rate)
    ensures StepN(FadeIn(f), Ceil(f.frames)) == Show(f)
  {
    FadingInCompletes(FadeIn(f));
    var r := StepN(FadeIn(f), Ceil(f.frames));
    assert r == Fade(1.0, FADED_IN, f.frames);
  }

  /** `fadeOut()` followed by ⌈fadeFrame⌉ frames hides the effect fully, whatever came before. */
  lemma FadeOutThenFramesHides(f: Fade)
    requires f.frames > 0.0 && InUnit(f.rate)
    ensures StepN(FadeOut(f), Ceil(f.frames)) == Hide(f)
  {
    FadingOutCompletes(FadeOut(f));
    var r := StepN(FadeOut(f), Ceil(f.frames));
    assert r == Fade(0.0, FADED_OUT, f.frames);
  }
}

=== FILE: heat_haze.dfy ===
/**
 * `GLSLCharaHeatHazeFilterParam`: the parameter object of the character
 * heat-haze effect. It carries the effect's settings, a time accumulator,
 * the shared fade machine, and the character it was created for; when the
 * character it resolves to changes (a map transfer replaces the event
 * objects, or the event or follower it names no longer exists), it asks
 * the screen's filter-parameter map to remove it.
 */
module CharaHeatHaze {
  import opened Wrappers
  import opened JsValues
  import Fade
  import ParamMaps

  const PLAYER: string := "player"
  const EVENT: string := "event"
  const FOLLOWER: string := "follower"

  datatype Color = Color(r: real, g: real, b: real)

  /** The options object passed to the constructor; `None` is an omitted property. */
  datatype Options = Options(
    speed: Option<real>,
    fadeFrame: Option<real>,
    fadeState: Option<string>,
    charaType: Option<string>,
    charaId: Option<int>,
    pitch: Option<real>,
    innerRadius: Option<real>,
    outerRadius: Option<real>,
    strength: Option<real>,
    color: Option<Color>)

  /**
   * The host characters the parameter can follow, by object identity:
   * `$gamePlayer`, the events of `$gameMap` by event id, and the
   * followers by member index.
   */
  datatype Characters = Characters(player: ObjId, events: map<int, ObjId>, followers: seq<ObjId>)

  datatype Param = Param(
    time: real,
    speed: real,
    fade: Fade.Fade,
    charaType: string,
    charaId: int,
    pitch: real,
    innerRadius: real,
    outerRadius: real,
    strength: real,
    color: Color,
    character: Value)

  /**
   * `character()`: the player, the event with id `charaId` (`undefined` if
   * the map has none), the follower at index `charaId - 1` (`undefined`
   * if there is none), or `null` for any other character type.
   */
  function CharacterOf(charaType: string, charaId: int, w: Characters): (r: Value)
    ensures charaType == PLAYER ==> r == Obj(w.player)
    ensures charaType == EVENT ==> (r.Obj? <==> charaId in w.events)
    ensures charaType == EVENT && charaId in w.events ==> r == Obj(w.events[charaId])
    ensures charaType == FOLLOWER ==> (r.Obj? <==> 1 <= charaId <= |w.followers|)
    ensures charaType == FOLLOWER && 1 <= charaId <= |w.followers| ==> r == Obj(w.followers[charaId - 1])
    ensures charaType !in {PLAYER, EVENT, FOLLOWER} ==> r == Null
    ensures r != Null <==> charaType in {PLAYER, EVENT, FOLLOWER}
  {
    if charaType == PLAYER then Obj(w.player)
    else if charaType == EVENT then
      (if charaId in w.events then Obj(w.events[charaId]) else Undefined)
    else if charaType == FOLLOWER then
      (if 0 <= charaId - 1 < |w.followers| then Obj(w.followers[charaId - 1]) else Undefined)
    else Null
  }

  /** `initialize(param)` / `initMembers`: each omitted option takes its default. */
  function New(param: Option<Options>, w: Characters): (p: Param)
    ensures p.time == 0.0 && p.fade.rate == 0.0
    ensures p.character == CharacterOf(p.charaType, p.charaId, w)
  {
    // a missing options object behaves as an empty one: every option is omitted
    var o := param.GetOr(Options(None, None, None, None, None, None, None, None, None, None));
    var charaType := o.charaType.GetOr(PLAYER);
    var charaId := o.charaId.GetOr(1);
    Param(
      0.0,
      o.speed.GetOr(1.0),
      Fade.Fade(0.0, o.fadeState.GetOr(Fade.FADED_OUT), o.fadeFrame.GetOr(60.0)),
      charaType,
      charaId,
      o.pitch.GetOr(1.0),
      o.innerRadius.GetOr(24.0),
      o.outerRadius.GetOr(72.0),
      o.strength.GetOr(1.0),
      o.color.GetOr(Color(2.0, 1.0, 1.0)),
      CharacterOf(charaType, charaId, w))
  }

  /** Whether the character captured at construction is still the one `character()` resolves to. */
  predicate SameCharacter(p: Param, w: Characters) {
    p.character == CharacterOf(p.charaType, p.charaId, w)
  }

  /**
   * `update()`: `checkCharacter`, then `updateTime`, then `updateFade`.
   * `self` is this parameter's identity and `screen` is
   * `$gameScreen.glslFilterParamMap()`. The character check calls the
   * registry's `remove` as it is written, so a parameter that the screen's
   * registry does not hold deletes that registry's "undefined" entry when
   * its character differs. Only a registry's own per-frame loop calls
   * `update()`, so this happens while the parameter is still held by some
   * other registry (a character's, a picture's or a battler's) and not by
   * the screen's; a parameter registered on the screen deletes its own key
   * on the first such frame and is then no longer updated.
   */
  function Update(p: Param, w: Characters, screen: ParamMaps.ParamMap, self: ObjId): (r: (Param, ParamMaps.ParamMap))
    ensures r.0.time == p.time + p.speed / 60.0
    ensures r.0.fade == Fade.Step(p.fade)
    ensures r.0 == p.(time := r.0.time, fade := r.0.fade)
    ensures SameCharacter(p, w) ==> r.1 == screen
    ensures !SameCharacter(p, w) && Obj(self) !in ParamMaps.Values(screen) ==> r.1 == ParamMaps.Delete(screen, "undefined")
  {
    (Tick(p), CheckCharacter(p, w, screen, self))
  }

  /** `checkCharacter()`: a parameter whose character changed asks the screen's registry to remove it. */
  function CheckCharacter(p: Param, w: Characters, screen: ParamMaps.ParamMap, self: ObjId): ParamMaps.ParamMap {
    if SameCharacter(p, w) then screen else ParamMaps.RemoveAsWritten(screen, Obj(self))
  }

  /** `updateTime` and `updateFade`, the part of `update()` that does not look at the world. */
  function Tick(p: Param): Param {
    p.(time := p.time + 1.0 / 60.0 * p.speed, fade := Fade.Step(p.fade))
  }

  /** `n` ticks. */
  function TickN(p: Param, n: nat): Param
    decreases n
  {
    if n == 0 then p else TickN(Tick(p), n - 1)
  }

  /**
   * When the character changed, the update removes the one registry entry
   * holding this parameter and leaves every other entry as it was.
   */
  lemma ChangedCharacterRemovesSelf(p: Param, w: Characters, screen: ParamMaps.ParamMap, self: ObjId)
    requires !SameCharacter(p, w) && ParamMaps.Valid(screen) && Obj(self) in ParamMaps.Values(screen)
    ensures var r := Update(p, w, screen, self).1;
      exists k | k in ParamMaps.KeySet(screen) ::
        && ParamMaps.Get(screen, k) == Obj(self)
        && ParamMaps.KeySet(r) == ParamMaps.KeySet(screen) - {k}
        && forall k' | k' != k :: ParamMaps.Get(r, k') == ParamMaps.Get(screen, k')
  {
    assert Update(p, w, screen, self).1 == ParamMaps.RemoveAsWritten(screen, Obj(self));
  }

  /**
   * The registry's `remove` bug reaches the screen: a parameter that the
   * screen's registry does not hold (it is updated because another
   * registry holds it) and whose character changed deletes the screen's
   * entry stored under the key "undefined" and leaves every other entry alone.
   */
  lemma UnregisteredParamDeletesUndefinedEntry(p: Param, w: Characters, screen: ParamMaps.ParamMap, self: ObjId)
    requires !SameCharacter(p, w) && Obj(self) !in ParamMaps.Values(screen)
    ensures var r := Update(p, w, screen, self).1;
      && ParamMaps.Get(r, "undefined") == Undefined
      && ParamMaps.KeySet(r) == ParamMaps.KeySet(screen) - {"undefined"}
      && forall k | k != "undefined" :: ParamMaps.Get(r, k) == ParamMaps.Get(screen, k)
  {
  }

  /** `n` frames of `update()` in an unchanging world. */
  function UpdateN(p: Param, w: Characters, screen: ParamMaps.ParamMap, self: ObjId, n: nat): (Param, ParamMaps.ParamMap)
    decreases n
  {
    if n == 0 then (p, screen)
    else
      UpdateN(Tick(p), w, CheckCharacter(p, w, screen, self), self, n - 1)
  }

  // ---------------------------------------------------------------------------
  // Properties

  /**
   * Each option left out of the options object takes its documented
   * default on its own, whatever the other options are; with no options
   * object at all every option takes its default.
   */
  lemma OmittedOptionsTakeDefaults(o: Options, w: Characters)
    ensures var p := New(Some(o), w);
      && (o.speed.None? ==> p.speed == 1.0)
      && (o.fadeFrame.None? ==> p.fade.frames == 60.0)
      && (o.fadeState.None? ==> p.fade.state == "fadedOut")
      && (o.charaType.None? ==> p.charaType == "player")
      && (o.charaId.None? ==> p.charaId == 1)
      && (o.pitch.None? ==> p.pitch == 1.0)
      && (o.innerRadius.None? ==> p.innerRadius == 24.0)
      && (o.outerRadius.None? ==> p.outerRadius == 72.0)
      && (o.strength.None? ==> p.strength == 1.0)
      && (o.color.None? ==> p.color == Color(2.0, 1.0, 1.0))
    ensures New(None, w) == Param(
      0.0, 1.0, Fade.Fade(0.0, "fadedOut", 60.0), "player", 1,
      1.0, 24.0, 72.0, 1.0, Color(2.0, 1.0, 1.0), Obj(w.player))
  {
  }

  /** Every option that is given is used as it is. */
  lemma GivenOptionsAreKept(o: Options, w: Characters)
    ensures var p := New(Some(o), w);
      && (o.speed.Some? ==> p.speed == o.speed.value)
      && (o.fadeFrame.Some? ==> p.fade.frames == o.fadeFrame.value)
      && (o.fadeState.Some? ==> p.fade.state == o.fadeState.value)
      && (o.charaType.Some? ==> p.charaType == o.charaType.value)
      && (o.charaId.Some? ==> p.charaId == o.charaId.value)
      && (o.pitch.Some? ==> p.pitch == o.pitch.value)
      && (o.innerRadius.Some? ==> p.innerRadius == o.innerRadius.value)
      && (o.outerRadius.Some? ==> p.outerRadius == o.outerRadius.value)
      && (o.strength.Some? ==> p.strength == o.strength.value)
      && (o.color.Some? ==> p.color == o.color.value)
  {
  }

  /** A parameter created in a world keeps its screen registration while that world's character stays the same. */
  lemma FreshParamStaysRegistered(param: Option<Options>, w: Characters, screen: ParamMaps.ParamMap, self: ObjId, n: nat)
    ensures UpdateN(New(param, w), w, screen, self, n).1 == screen
  {
    SameWorldKeepsScreen(New(param, w), w, screen, self, n);
  }

  lemma {:induction false} SameWorldKeepsScreen(p: Param, w: Characters, screen: ParamMaps.ParamMap, self: ObjId, n: nat)
    requires SameCharacter(p, w)
    ensures UpdateN(p, w, screen, self, n).1 == screen
    decreases n
  {
    if n > 0 {
      assert CheckCharacter(p, w, screen, self) == screen;
      SameWorldKeepsScreen(Tick(p), w, screen, self, n - 1);
    }
  }

  /**
   * Over `n` frames time grows by `n * speed / 60` and the fade advances `n`
   * steps, whether or not the parameter removed itself along the way.
   */
  lemma {:induction false} FramesAdvanceTimeAndFade(p: Param, w: Characters, screen: ParamMaps.ParamMap, self: ObjId, n: nat)
    ensures UpdateN(p, w, screen, self, n).0.time == p.time + n as real * p.speed / 60.0
    ensures UpdateN(p, w, screen, self, n).0.fade == Fade.StepN(p.fade, n)
    ensures UpdateN(p, w, screen, self, n).0.speed == p.speed
  {
    UpdateNTicks(p, w, screen, self, n);
    TicksAdvanceTimeAndFade(p, n);
  }

  /** The parameter part of `n` updates is `n` ticks, whatever happens to the screen. */
  lemma {:induction false} UpdateNTicks(p: Param, w: Characters, screen: ParamMaps.ParamMap, self: ObjId, n: nat)
    ensures UpdateN(p, w, screen, self, n).0 == TickN(p, n)
    decreases n
  {
    if n > 0 {
      UpdateNTicks(Tick(p), w, CheckCharacter(p, w, screen, self), self, n - 1);
    }
  }

  lemma {:induction false} TicksAdvanceTimeAndFade(p: Param, n: nat)
    ensures TickN(p, n).time == p.time + n as real * p.speed / 60.0
    ensures TickN(p, n).fade == Fade.StepN(p.fade, n)
    ensures TickN(p, n).speed == p.speed
    decreases n
  {
    if n > 0 {
      TicksAdvanceTimeAndFade(Tick(p), n - 1);
    }
  }
}

=== FILE: js_values.dfy ===
/**
 * The JavaScript values the plugins store and compare: `undefined`, `null`
 * and objects, the latter known only by their identity. Strict equality
 * (`===`) on these is Dafny equality, and only objects are truthy.
 */
module JsValues {

  /** Object identities are naturals: two references are `===` iff the numbers agree. */
  type ObjId = nat

  datatype Value = Undefined | Null | Obj(id: ObjId)

  /** Truthiness: objects are truthy, `undefined` and `null` are not. */
  predicate Truthy(v: Value) {
    v.Obj?
  }
}

=== FILE: notetags.dfy ===
/**
 * The notetag scan of the save-event-locations plugin: a note is split
 * into lines at every run of carriage returns and line feeds, and a line
 * matches when it contains `<save event location>` or
 * `<save event locations>` in any letter case.
 *
 * The tag regular expression carries the `i` flag but not `u`, so a
 * character outside ASCII never folds onto an ASCII letter: ASCII case
 * folding is exactly the regular expression's notion of case.
 */
module Notetags {

  const TAG_LOCATION: string := "<save event location>"
  const TAG_LOCATIONS: string := "<save event locations>"

  predicate IsLineBreak(c: char) {
    c == '\r' || c == '\n'
  }

  function LowerAscii(c: char): char {
    if 'A' <= c <= 'Z' then (c as int - 'A' as int + 'a' as int) as char else c
  }

  /** `tag` (written in lower case) occurs in `s` at position `k`, ignoring ASCII case. */
  predicate MatchesAt(s: string, k: int, tag: string) {
    && 0 <= k
    && k + |tag| <= |s|
    && forall t | 0 <= t < |tag| :: LowerAscii(s[k + t]) == tag[t]
  }

  predicate ContainsTag(s: string, tag: string) {
    exists k | 0 <= k <= |s| - |tag| :: MatchesAt(s, k, tag)
  }

  /** A line matches when it contains either tag, ignoring letter case. */
  predicate LineMatches(line: string) {
    ContainsTag(line, TAG_LOCATION) || ContainsTag(line, TAG_LOCATIONS)
  }

  /** Index of the first line break in `s` at or after `from`, or `|s|`. */
  function LineEnd(s: string, from: nat): (e: nat)
    requires from <= |s|
    ensures from <= e <= |s|
    ensures forall i | from <= i < e :: !IsLineBreak(s[i])
    ensures e < |s| ==> IsLineBreak(s[e])
    decreases |s| - from
  {
    if from == |s| || IsLineBreak(s[from]) then from else LineEnd(s, from + 1)
  }

  /** Index just past the run of line breaks starting at `from`. */
  function BreakRunEnd(s: string, from: nat): (e: nat)
    requires from <= |s|
    ensures from <= e <= |s|
    ensures forall i | from <= i < e :: IsLineBreak(s[i])
    ensures e < |s| ==> !IsLineBreak(s[e])
    decreases |s| - from
  {
    if from == |s| || !IsLineBreak(s[from]) then from else BreakRunEnd(s, from + 1)
  }

  /**
   * Splitting at line breaks: the pieces between maximal runs of line
   * breaks; a leading or trailing run yields an empty first or last line,
   * and the empty note is one empty line.
   */
  function SplitLines(s: string): (lines: seq<string>)
    ensures |lines| >= 1
    decreases |s|
  {
    var e := LineEnd(s, 0);
    if e == |s| then [s]
    else [s[..e]] + SplitLines(s[BreakRunEnd(s, e)..])
  }

  /**
   * The `for` loop of the scanners: the flag starts false and is set on
   * every matching line, so it ends true exactly when some line matches.
   */
  function ScanLines(lines: seq<string>): (flag: bool)
    ensures flag <==> exists i | 0 <= i < |lines| :: LineMatches(lines[i])
  {
    if |lines| == 0 then false
    else
      var rest := ScanLines(lines[1..]);
      assert rest <==> exists i | 1 <= i < |lines| :: LineMatches(lines[i]) by {
        if rest {
          var i :| 0 <= i < |lines[1..]| && LineMatches(lines[1..][i]);
          assert lines[i + 1] == lines[1..][i];
        }
        if exists i | 1 <= i < |lines| :: LineMatches(lines[i]) {
          var i :| 1 <= i < |lines| && LineMatches(lines[i]);
          assert lines[1..][i - 1] == lines[i];
        }
      }
      LineMatches(lines[0]) || rest
  }

  /** The reference meaning of the flag: the note contains either tag, in any letter case. */
  predicate NoteHasTag(note: string) {
    ContainsTag(note, TAG_LOCATION) || ContainsTag(note, TAG_LOCATIONS)
  }

  /** The flag a note sets: the line-by-line scan of its lines. */
  function NoteFlag(note: string): bool {
    ScanLines(SplitLines(note))
  }

  // ---------------------------------------------------------------------------
  // Properties

  /**
   * Because neither tag contains a line break, scanning line by line is
   * the same as searching the whole note.
   */
  lemma NoteFlagIsSubstringTest(note: string)
    ensures NoteFlag(note) <==> NoteHasTag(note)
  {
    var lines := SplitLines(note);
    TagsHaveNoLineBreak();
    SplitPreservesTag(note, TAG_LOCATION);
    SplitPreservesTag(note, TAG_LOCATIONS);
    if ContainsTag(note, TAG_LOCATION) {
      var i :| 0 <= i < |lines| && ContainsTag(lines[i], TAG_LOCATION);
      assert LineMatches(lines[i]);
    }
    if ContainsTag(note, TAG_LOCATIONS) {
      var i :| 0 <= i < |lines| && ContainsTag(lines[i], TAG_LOCATIONS);
      assert LineMatches(lines[i]);
    }
    if NoteFlag(note) {
      var i :| 0 <= i < |lines| && LineMatches(lines[i]);
      if ContainsTag(lines[i], TAG_LOCATION) {
        assert exists i | 0 <= i < |SplitLines(note)| :: ContainsTag(SplitLines(note)[i], TAG_LOCATION);
        assert ContainsTag(note, TAG_LOCATION);
      } else {
        assert exists i | 0 <= i < |SplitLines(note)| :: ContainsTag(SplitLines(note)[i], TAG_LOCATIONS);
        assert ContainsTag(note, TAG_LOCATIONS);
      }
    }
  }

  // ---------------------------------------------------------------------------
  // Helper lemmas

  predicate NoLineBreak(tag: string) {
    forall t | 0 <= t < |tag| :: !IsLineBreak(tag[t])
  }

  lemma TagsHaveNoLineBreak()
    ensures NoLineBreak(TAG_LOCATION) && NoLineBreak(TAG_LOCATIONS)
  {
  }

  /** Some line of `SplitLines(s)` contains `tag` exactly when `s` does. */
  lemma SplitPreservesTag(s: string, tag: string)
    requires NoLineBreak(tag)
    ensures (exists i | 0 <= i < |SplitLines(s)| :: ContainsTag(SplitLines(s)[i], tag)) <==> ContainsTag(s, tag)
  {
    if exists i | 0 <= i < |SplitLines(s)| :: ContainsTag(SplitLines(s)[i], tag) {
      var i :| 0 <= i < |SplitLines(s)| && ContainsTag(SplitLines(s)[i], tag);
      LineMatchIsNoteMatch(s, tag, i);
    }
    if ContainsTag(s, tag) {
      var k :| 0 <= k <= |s| - |tag| && MatchesAt(s, k, tag);
      var i := NoteMatchIsLineMatch(s, tag, k);
    }
  }

  /** A match inside a line is a match inside the note. */
  lemma {:induction false} LineMatchIsNoteMatch(s: string, tag: string, i: nat)
    requires i < |SplitLines(s)| && ContainsTag(SplitLines(s)[i], tag)
    ensures ContainsTag(s, tag)
    decreases |s|
  {
    var lines := SplitLines(s);
    var e := LineEnd(s, 0);
    if e == |s| {
      assert lines == [s];
    } else {
      var j := BreakRunEnd(s, e);
      var rest := s[j..];
      assert lines == [s[..e]] + SplitLines(rest);
      if i == 0 {
        var k :| 0 <= k <= |s[..e]| - |tag| && MatchesAt(s[..e], k, tag);
        assert MatchesAt(s, k, tag);
      } else {
        assert SplitLines(rest)[i - 1] == lines[i];
        LineMatchIsNoteMatch(rest, tag, i - 1);
        var k :| 0 <= k <= |rest| - |tag| && MatchesAt(rest, k, tag);
        assert MatchesAt(s, k + j, tag);
      }
    }
  }

  /** A match inside the note lies inside a single line, since the tag cannot span a line break. */
  lemma {:induction false} NoteMatchIsLineMatch(s: string, tag: string, k: nat) returns (i: nat)
    requires NoLineBreak(tag) && MatchesAt(s, k, tag)
    ensures i < |SplitLines(s)| && ContainsTag(SplitLines(s)[i], tag)
    decreases |s|
  {
    var lines := SplitLines(s);
    var e := LineEnd(s, 0);
    if e == |s| {
      assert lines == [s];
      i := 0;
    } else {
      var j := BreakRunEnd(s, e);
      var rest := s[j..];
      assert lines == [s[..e]] + SplitLines(rest);
      if |tag| == 0 {
        assert MatchesAt(s[..e], 0, tag);
        i := 0;
      } else if k + |tag| <= e {
        assert MatchesAt(s[..e], k, tag);
        i := 0;
      } else if k >= j {
        assert MatchesAt(rest, k - j, tag);
        var i' := NoteMatchIsLineMatch(rest, tag, k - j);
        assert lines[i' + 1] == SplitLines(rest)[i'];
        i := i' + 1;
      } else {
        // the match would have to cover the line break at max(k, e)
        var p := if k < e then e else k;
        MatchHasNoBreak(s, k, tag, p);
        assert false;
      }
    }
  }

  /** Inside a match of a tag without line breaks, `s` has no line break either. */
  lemma MatchHasNoBreak(s: string, k: nat, tag: string, p: nat)
    requires NoLineBreak(tag) && MatchesAt(s, k, tag)
    requires k <= p < k + |tag|
    ensures !IsLineBreak(s[p])
  {
    assert LowerAscii(s[k + (p - k)]) == tag[p - k];
  }
}

=== FILE: param_map.dfy ===
/**
 * `GLSLFilterParamMap`: a string-keyed registry from filter id to filter
 * parameter object, backed by a plain JavaScript object.
 *
 * The entries are kept in JavaScript's own-property order, which is the
 * order `Object.keys`, `Object.values` and `Object.entries` report:
 * canonical array-index keys ("0", "1", ... up to 2^32 - 2) first in
 * ascending numeric order, then every other key in insertion order.
 * Overwriting a key keeps its position; deleting it removes it.
 */
module ParamMaps {
  import opened Wrappers
  import opened JsValues

  type Key = string
  type Entry = (Key, Value)

  datatype ParamMap = ParamMap(entries: seq<Entry>)

  // ---------------------------------------------------------------------------
  // Property-key order

  /** Largest array index: 2^32 - 2. */
  const MAX_ARRAY_INDEX: nat := 4294967294

  predicate IsDigit(c: char) {
    '0' <= c <= '9'
  }

  predicate AllDigits(s: string) {
    forall i | 0 <= i < |s| :: IsDigit(s[i])
  }

  /** The number a string of decimal digits denotes. */
  function DecimalValue(s: string): nat
    requires AllDigits(s)
  {
    if |s| == 0 then 0
    else DecimalValue(s[..|s| - 1]) * 10 + (s[|s| - 1] as int - '0' as int)
  }

  /** A canonical array index: a decimal numeral without leading zeros whose value is at most 2^32 - 2. */
  predicate IsArrayIndex(k: Key) {
    && |k| > 0
    && AllDigits(k)
    && (k[0] != '0' || |k| == 1)
    && DecimalValue(k) <= MAX_ARRAY_INDEX
  }

  /**
   * `a` may stand before `b` in own-property order: an array-index key is
   * only preceded by array-index keys that are not larger.
   */
  predicate InOrder(a: Key, b: Key) {
    IsArrayIndex(b) ==> IsArrayIndex(a) && DecimalValue(a) <= DecimalValue(b)
  }

  predicate KeysValid(ks: seq<Key>) {
    forall i, j | 0 <= i < j < |ks| :: ks[i] != ks[j] && InOrder(ks[i], ks[j])
  }

  /** The representation invariant: distinct keys in own-property order. */
  predicate Valid(m: ParamMap) {
    KeysValid(Keys(m))
  }

  // ---------------------------------------------------------------------------
  // Observers

  /** `keys()`: one key per entry, in entry order; each stored key is listed. */
  function Keys(m: ParamMap): (r: seq<Key>)
    ensures |r| == |m.entries|
    ensures forall k :: k in r <==> k in KeySet(m)
  {
    var r := seq(|m.entries|, i requires 0 <= i < |m.entries| => m.entries[i].0);
    assert forall i | 0 <= i < |r| :: r[i] == m.entries[i].0;
    r
  }

  /**
   * `values()`: one value per entry; in a well-formed registry the value at
   * each position is what `get` returns for the key at that position of `keys()`.
   */
  function Values(m: ParamMap): (r: seq<Value>)
    ensures |r| == |Keys(m)|
    ensures Valid(m) ==> forall i | 0 <= i < |r| :: r[i] == Get(m, Keys(m)[i])
  {
    seq(|m.entries|, i requires 0 <= i < |m.entries| => m.entries[i].1)
  }

  function KeySet(m: ParamMap): set<Key> {
    set i | 0 <= i < |m.entries| :: m.entries[i].0
  }

  function Lookup(es: seq<Entry>, k: Key): Value {
    if |es| == 0 then Undefined
    else if es[0].0 == k then es[0].1
    else Lookup(es[1..], k)
  }

  /** `get(key)`: the stored value, `undefined` when the key is absent. */
  function Get(m: ParamMap, k: Key): (r: Value)
    ensures k !in KeySet(m) ==> r == Undefined
    ensures r != Undefined ==> exists i | 0 <= i < |m.entries| :: m.entries[i] == (k, r)
    ensures Valid(m) ==> forall i | 0 <= i < |m.entries| && m.entries[i].0 == k :: r == m.entries[i].1
  {
    LookupFacts(m.entries, k);
    ValidLookupAll(m, k);
    Lookup(m.entries, k)
  }

  /** `has(key)`: whether the stored value is truthy, i.e. an object is stored under `key`. */
  function Has(m: ParamMap, k: Key): (r: bool)
    ensures r <==> Get(m, k).Obj?
    ensures r ==> k in KeySet(m)
  {
    Truthy(Get(m, k))
  }

  // ---------------------------------------------------------------------------
  // Mutators

  /** The empty registry, as `initialize` creates it. */
  function Empty(): (r: ParamMap)
    ensures Valid(r)
  {
    ParamMap([])
  }

  /** `clear()`: no keys, no values, nothing `has` anything. */
  function Clear(m: ParamMap): (r: ParamMap)
    ensures Valid(r)
    ensures Keys(r) == [] && Values(r) == []
    ensures forall k :: Get(r, k) == Undefined && !Has(r, k)
  {
    Empty()
  }

  /** Overwrites the value of the first entry keyed `k`, in place. */
  function Replace(es: seq<Entry>, k: Key, v: Value): (r: seq<Entry>)
    ensures |r| == |es|
    ensures forall i | 0 <= i < |es| :: r[i].0 == es[i].0
  {
    if |es| == 0 then []
    else if es[0].0 == k then [(k, v)] + es[1..]
    else [es[0]] + Replace(es[1..], k, v)
  }

  /** Where a new key goes: before the first entry it may not follow. */
  function InsertPos(ks: seq<Key>, k: Key): (p: nat)
    ensures p <= |ks|
    ensures forall i | 0 <= i < p :: InOrder(ks[i], k)
    ensures p < |ks| ==> !InOrder(ks[p], k)
  {
    if |ks| == 0 || !InOrder(ks[0], k) then 0 else 1 + InsertPos(ks[1..], k)
  }

  /** `set(key, value)`: store `value` as the property named `key`, overwriting any earlier value. */
  function Set(m: ParamMap, k: Key, v: Value): (r: ParamMap)
    ensures Get(r, k) == v
    ensures forall k' | k' != k :: Get(r, k') == Get(m, k')
    ensures KeySet(r) == KeySet(m) + {k}
    ensures k in KeySet(m) ==> Keys(r) == Keys(m)
    ensures k !in KeySet(m) ==>
      exists p | 0 <= p <= |Keys(m)| :: Keys(r) == Keys(m)[..p] + [k] + Keys(m)[p..]
    ensures k !in KeySet(m) && !IsArrayIndex(k) ==> Keys(r) == Keys(m) + [k]
    ensures Valid(m) ==> Valid(r)
  {
    if k in KeySet(m) then
      var r := ParamMap(Replace(m.entries, k, v));
      SetExisting(m, k, v);
      r
    else
      var p := InsertPos(Keys(m), k);
      var r := ParamMap(m.entries[..p] + [(k, v)] + m.entries[p..]);
      SetFresh(m, k, v, p);
      r
  }

  /** Every entry except those keyed `k`, in their original order. */
  function RemoveKey(es: seq<Entry>, k: Key): (r: seq<Entry>)
    ensures |r| <= |es|
    ensures forall e :: e in r <==> e in es && e.0 != k
  {
    if |es| == 0 then []
    else if es[0].0 == k then RemoveKey(es[1..], k)
    else [es[0]] + RemoveKey(es[1..], k)
  }

  /** `delete(key)`: the property named `key` is removed. */
  function Delete(m: ParamMap, k: Key): (r: ParamMap)
    ensures Get(r, k) == Undefined && k !in KeySet(r)
    ensures forall k' | k' != k :: Get(r, k') == Get(m, k')
    ensures KeySet(r) == KeySet(m) - {k}
    ensures Valid(m) ==> Valid(r)
  {
    var r := ParamMap(RemoveKey(m.entries, k));
    DeleteFacts(m, k);
    r
  }

  /** Position of the first entry, in entry order, holding exactly `v`; `|es|` when none does. */
  function FirstIndexOf(es: seq<Entry>, v: Value): (i: nat)
    ensures i <= |es|
    ensures i < |es| ==> es[i].1 == v
    ensures forall j | 0 <= j < i :: es[j].1 != v
  {
    if |es| == 0 || es[0].1 == v then 0 else 1 + FirstIndexOf(es[1..], v)
  }

  /** `key(value)`: the key of the first entry holding exactly `v`, or `undefined`. */
  function KeyOf(m: ParamMap, v: Value): (r: Option<Key>)
    ensures r.None? <==> v !in Values(m)
    ensures r.Some? ==>
      exists i | 0 <= i < |m.entries| :: m.entries[i] == (r.value, v) && forall j | 0 <= j < i :: m.entries[j].1 != v
  {
    var i := FirstIndexOf(m.entries, v);
    assert v in Values(m) ==> i < |m.entries| by {
      if v in Values(m) {
        var j :| 0 <= j < |Values(m)| && Values(m)[j] == v;
        assert m.entries[j].1 == v;
      }
    }
    if i < |m.entries| then
      assert Values(m)[i] == v;
      Some(m.entries[i].0)
    else None
  }

  /**
   * `remove(value)`: deletes the entry whose key `key(value)` finds, and
   * leaves the map alone when no entry holds `value`. This is the
   * behaviour the plugin intends; `RemoveAsWritten` is the code as it stands.
   */
  function Remove(m: ParamMap, v: Value): (r: ParamMap)
    ensures v !in Values(m) ==> r == m
    ensures Valid(m) && v in Values(m) ==>
      exists k | k in KeySet(m) ::
        && Get(m, k) == v
        && k !in KeySet(r)
        && KeySet(r) == KeySet(m) - {k}
        && forall k' | k' != k :: Get(r, k') == Get(m, k')
    ensures Valid(m) ==> Valid(r)
  {
    match KeyOf(m, v)
    case None => m
    case Some(k) =>
      RemoveFound(m, v);
      Delete(m, k)
  }

  /**
   * `remove(value)` as written: it deletes whatever key `key(value)`
   * returns. When no entry holds `value`, that key is `undefined`, which
   * as a property key is the string "undefined", so that entry is deleted.
   */
  function RemoveAsWritten(m: ParamMap, v: Value): (r: ParamMap)
    ensures v !in Values(m) ==> r == Delete(m, "undefined")
    ensures v in Values(m) ==> r == Remove(m, v)
  {
    match KeyOf(m, v)
    case None => Delete(m, "undefined")
    case Some(k) => Delete(m, k)
  }

  // ---------------------------------------------------------------------------
  // Properties

  /** `has(k)` holds exactly when an entry keyed `k` stores an object. */
  lemma HasIffStoredObject(m: ParamMap, k: Key)
    requires Valid(m)
    ensures Has(m, k) <==> exists i | 0 <= i < |m.entries| :: m.entries[i].0 == k && m.entries[i].1.Obj?
    ensures m.entries == [] ==> !Has(m, k)
  {
    if exists i | 0 <= i < |m.entries| :: m.entries[i].0 == k && m.entries[i].1.Obj? {
      var i :| 0 <= i < |m.entries| && m.entries[i].0 == k && m.entries[i].1.Obj?;
      ValidLookup(m, i);
    }
  }

  /** `get` after `set` on the same key returns what was stored; `has` follows its truthiness. */
  lemma SetGetHas(m: ParamMap, k: Key, v: Value, k': Key)
    ensures Get(Set(m, k, v), k) == v
    ensures Has(Set(m, k, v), k) <==> v.Obj?
    ensures k' != k ==> Has(Set(m, k, v), k') == Has(m, k')
    ensures !Has(Set(m, k, Null), k) && !Has(Set(m, k, Undefined), k)
  {
  }

  /** Removing the value stored under a key of a well-formed map deletes exactly that key. */
  lemma RemoveStoredValue(m: ParamMap, k: Key, v: Value)
    requires Valid(m)
    requires Get(m, k) == v && v != Undefined
    ensures Remove(m, v) == Delete(m, k) || exists k0 | k0 != k :: Get(m, k0) == v
    ensures (forall k0 | k0 != k :: Get(m, k0) != v) ==> Remove(m, v) == Delete(m, k)
  {
    var i :| 0 <= i < |m.entries| && m.entries[i] == (k, v);
    assert Values(m)[i] == v;
    RemoveFound(m, v);
    var k' := KeyOf(m, v).value;
    if forall k0 | k0 != k :: Get(m, k0) != v {
      assert k' == k;
    }
  }

  lemma RemoveFound(m: ParamMap, v: Value)
    requires KeyOf(m, v).Some?
    ensures var k := KeyOf(m, v).value;
      && k in KeySet(m)
      && (Valid(m) ==> Get(m, k) == v)
  {
    var k := KeyOf(m, v).value;
    var i :| 0 <= i < |m.entries| && m.entries[i] == (k, v) && forall j | 0 <= j < i :: m.entries[j].1 != v;
    if Valid(m) {
      ValidLookup(m, i);
    }
  }

  /** The as-written `remove` deletes an unrelated entry when asked for a value it does not hold. */
  lemma RemoveAsWrittenDropsUndefinedKey()
    ensures var m := Set(Empty(), "undefined", Obj(1));
      && Get(m, "undefined") == Obj(1)
      && Get(RemoveAsWritten(m, Obj(2)), "undefined") == Undefined
      && Get(Remove(m, Obj(2)), "undefined") == Obj(1)
  {
    var m := Set(Empty(), "undefined", Obj(1));
    assert m.entries == [("undefined", Obj(1))];
    assert Values(m) == [Obj(1)];
  }

  /**
   * Own-property order in action: a later array-index key is listed
   * before an earlier ordinary key, and overwriting keeps the order.
   */
  lemma IndexKeysComeFirst(v: Value, w: Value)
    ensures Keys(Set(Set(Empty(), "b", v), "1", w)) == ["1", "b"]
    ensures Keys(Set(Set(Set(Empty(), "b", v), "1", w), "b", w)) == ["1", "b"]
  {
    var m1 := Set(Empty(), "b", v);
    assert "b" !in KeySet(Empty());
    assert !IsArrayIndex("b") by {
      assert !IsDigit("b"[0]);
    }
    assert Keys(m1) == ["b"];
    assert IsArrayIndex("1") by {
      assert AllDigits("1");
      assert "1"[..0] == [];
      assert DecimalValue("1") == 1;
    }
    assert !InOrder("b", "1");
    assert InsertPos(Keys(m1), "1") == 0;
    assert KeySet(m1) == {"b"};
  }

  // ---------------------------------------------------------------------------
  // Helper lemmas

  lemma {:induction false} LookupFacts(es: seq<Entry>, k: Key)
    ensures (forall i | 0 <= i < |es| :: es[i].0 != k) ==> Lookup(es, k) == Undefined
    ensures Lookup(es, k) != Undefined ==> exists i | 0 <= i < |es| :: es[i] == (k, Lookup(es, k))
  {
    if |es| > 0 && es[0].0 != k {
      LookupFacts(es[1..], k);
      if Lookup(es, k) != Undefined {
        var i :| 0 <= i < |es[1..]| && es[1..][i] == (k, Lookup(es, k));
        assert es[i + 1] == (k, Lookup(es, k));
      }
    }
  }

  lemma {:induction false} LookupAt(es: seq<Entry>, i: nat)
    requires i < |es|
    requires forall j | 0 <= j < i :: es[j].0 != es[i].0
    ensures Lookup(es, es[i].0) == es[i].1
  {
    if i > 0 {
      LookupAt(es[1..], i - 1);
    }
  }

  lemma ValidLookup(m: ParamMap, i: nat)
    requires Valid(m) && i < |m.entries|
    ensures Get(m, m.entries[i].0) == m.entries[i].1
  {
  }

  /** In a well-formed map every entry keyed `k` is the first such entry, so lookup finds its value. */
  lemma ValidLookupAll(m: ParamMap, k: Key)
    ensures Valid(m) ==> forall i | 0 <= i < |m.entries| && m.entries[i].0 == k :: Lookup(m.entries, k) == m.entries[i].1
  {
    forall i | Valid(m) && 0 <= i < |m.entries| && m.entries[i].0 == k
      ensures Lookup(m.entries, k) == m.entries[i].1
    {
      forall j | 0 <= j < i
        ensures m.entries[j].0 != m.entries[i].0
      {
        assert Keys(m)[j] != Keys(m)[i];
      }
      LookupAt(m.entries, i);
    }
  }

  lemma {:induction false} LookupReplace(es: seq<Entry>, k: Key, v: Value, k': Key)
    requires exists i | 0 <= i < |es| :: es[i].0 == k
    ensures Lookup(Replace(es, k, v), k) == v
    ensures k' != k ==> Lookup(Replace(es, k, v), k') == Lookup(es, k')
  {
    if es[0].0 != k {
      var i :| 0 <= i < |es| && es[i].0 == k;
      assert es[1..][i - 1].0 == k;
      LookupReplace(es[1..], k, v, k');
    }
  }

  lemma {:induction false} LookupAppend(a: seq<Entry>, b: seq<Entry>, k: Key)
    ensures (forall i | 0 <= i < |a| :: a[i].0 != k) ==> Lookup(a + b, k) == Lookup(b, k)
    ensures (exists i | 0 <= i < |a| :: a[i].0 == k) ==> Lookup(a + b, k) == Lookup(a, k)
  {
    if |a| == 0 {
      assert a + b == b;
    } else {
      assert (a + b)[1..] == a[1..] + b;
      LookupAppend(a[1..], b, k);
      if a[0].0 != k && exists i | 0 <= i < |a| :: a[i].0 == k {
        var i :| 0 <= i < |a| && a[i].0 == k;
        assert a[1..][i - 1].0 == k;
      }
    }
  }

  lemma SetExisting(m: ParamMap, k: Key, v: Value)
    requires k in KeySet(m)
    ensures var r := ParamMap(Replace(m.entries, k, v));
      && Get(r, k) == v
      && (forall k' | k' != k :: Get(r, k') == Get(m, k'))
      && Keys(r) == Keys(m)
      && KeySet(r) == KeySet(m)
  {
    var r := ParamMap(Replace(m.entries, k, v));
    var i :| 0 <= i < |m.entries| && m.entries[i].0 == k;
    LookupReplace(m.entries, k, v, k);
    forall k' | k' != k
      ensures Get(r, k') == Get(m, k')
    {
      LookupReplace(m.entries, k, v, k');
    }
    SameKeys(r, m);
  }

  /** Two registries whose entries carry the same keys, position by position, have the same keys. */
  lemma SameKeys(a: ParamMap, b: ParamMap)
    requires |a.entries| == |b.entries|
    requires forall i | 0 <= i < |a.entries| :: a.entries[i].0 == b.entries[i].0
    ensures Keys(a) == Keys(b) && KeySet(a) == KeySet(b)
  {
    assert forall x | x in KeySet(a) :: x in KeySet(b) by {
      forall x | x in KeySet(a) ensures x in KeySet(b) {
        var i :| 0 <= i < |a.entries| && a.entries[i].0 == x;
        assert b.entries[i].0 == x;
      }
    }
    assert forall x | x in KeySet(b) :: x in KeySet(a) by {
      forall x | x in KeySet(b) ensures x in KeySet(a) {
        var i :| 0 <= i < |b.entries| && b.entries[i].0 == x;
        assert a.entries[i].0 == x;
      }
    }
  }

  lemma SetFresh(m: ParamMap, k: Key, v: Value, p: nat)
    requires k !in KeySet(m)
    requires p == InsertPos(Keys(m), k)
    ensures var r := ParamMap(m.entries[..p] + [(k, v)] + m.entries[p..]);
      && Get(r, k) == v
      && (forall k' | k' != k :: Get(r, k') == Get(m, k'))
      && KeySet(r) == KeySet(m) + {k}
      && Keys(r) == Keys(m)[..p] + [k] + Keys(m)[p..]
      && (!IsArrayIndex(k) ==> Keys(r) == Keys(m) + [k])
      && (Valid(m) ==> Valid(r))
  {
    var ks := Keys(m);
    var r := ParamMap(m.entries[..p] + [(k, v)] + m.entries[p..]);
    InsertLookup(m, k, v, p);
    InsertKeys(m, k, v, p);
    if !IsArrayIndex(k) {
      assert p == |ks|;
      assert ks[..p] == ks;
    }
    if Valid(m) {
      InsertKeepsValid(ks, k, p);
    }
  }

  lemma InsertLookup(m: ParamMap, k: Key, v: Value, p: nat)
    requires k !in KeySet(m) && p <= |m.entries|
    ensures var r := ParamMap(m.entries[..p] + [(k, v)] + m.entries[p..]);
      && Get(r, k) == v
      && (forall k' | k' != k :: Get(r, k') == Get(m, k'))
  {
    var es := m.entries;
    var r := ParamMap(es[..p] + [(k, v)] + es[p..]);
    assert es[..p] + [(k, v)] + es[p..] == es[..p] + ([(k, v)] + es[p..]);
    forall i | 0 <= i < p
      ensures es[..p][i].0 != k
    {
      assert es[i].0 in KeySet(m);
    }
    LookupAppend(es[..p], [(k, v)] + es[p..], k);
    forall k' | k' != k
      ensures Get(r, k') == Get(m, k')
    {
      LookupAppend(es[..p], [(k, v)] + es[p..], k');
      LookupAppend(es[..p], es[p..], k');
      assert es[..p] + es[p..] == es;
    }
  }

  lemma InsertKeys(m: ParamMap, k: Key, v: Value, p: nat)
    requires p <= |m.entries|
    ensures var r := ParamMap(m.entries[..p] + [(k, v)] + m.entries[p..]);
      && KeySet(r) == KeySet(m) + {k}
      && Keys(r) == Keys(m)[..p] + [k] + Keys(m)[p..]
  {
    var es := m.entries;
    var r := ParamMap(es[..p] + [(k, v)] + es[p..]);
    assert Keys(r) == Keys(m)[..p] + [k] + Keys(m)[p..];
    forall x | x in KeySet(r)
      ensures x in KeySet(m) + {k}
    {
      var i :| 0 <= i < |r.entries| && r.entries[i].0 == x;
      if i < p {
        assert r.entries[i] == es[i];
      } else if i > p {
        assert r.entries[i] == es[i - 1];
      }
    }
    forall x | x in KeySet(m)
      ensures x in KeySet(r)
    {
      var i :| 0 <= i < |es| && es[i].0 == x;
      if i < p {
        assert r.entries[i] == es[i];
      } else {
        assert r.entries[i + 1] == es[i];
      }
    }
    assert r.entries[p].0 == k;
  }

  lemma InsertKeepsValid(ks: seq<Key>, k: Key, p: nat)
    requires KeysValid(ks)
    requires k !in ks
    requires p == InsertPos(ks, k)
    ensures KeysValid(ks[..p] + [k] + ks[p..])
  {
    var ks' := ks[..p] + [k] + ks[p..];
    forall i, j | 0 <= i < j < |ks'|
      ensures ks'[i] != ks'[j] && InOrder(ks'[i], ks'[j])
    {
      if j < p {
        assert ks'[i] == ks[i] && ks'[j] == ks[j];
      } else if j == p {
        assert ks'[i] == ks[i] && ks'[j] == k;
      } else if i < p {
        assert ks'[i] == ks[i] && ks'[j] == ks[j - 1];
      } else if i == p {
        assert ks'[i] == k && ks'[j] == ks[j - 1];
        assert ks[j - 1] in ks;
        if j - 1 > p {
          assert InOrder(ks[p], ks[j - 1]);
        }
      } else {
        assert ks'[i] == ks[i - 1] && ks'[j] == ks[j - 1];
      }
    }
  }

  lemma {:induction false} LookupRemoveKey(es: seq<Entry>, k: Key, k': Key)
    ensures Lookup(RemoveKey(es, k), k) == Undefined
    ensures k' != k ==> Lookup(RemoveKey(es, k), k') == Lookup(es, k')
  {
    if |es| > 0 {
      LookupRemoveKey(es[1..], k, k');
    }
  }

  /** `KeysValid` stated on the entries themselves. */
  predicate EntriesValid(es: seq<Entry>) {
    forall i, j | 0 <= i < j < |es| :: es[i].0 != es[j].0 && InOrder(es[i].0, es[j].0)
  }

  lemma EntriesValidIsKeysValid(es: seq<Entry>)
    ensures KeysValid(Keys(ParamMap(es))) <==> EntriesValid(es)
  {
    var ks := Keys(ParamMap(es));
    assert forall i | 0 <= i < |es| :: ks[i] == es[i].0;
  }

  lemma RemoveKeyKeepsValid(es: seq<Entry>, k: Key)
    requires KeysValid(Keys(ParamMap(es)))
    ensures KeysValid(Keys(ParamMap(RemoveKey(es, k))))
  {
    EntriesValidIsKeysValid(es);
    RemoveKeyKeepsEntriesValid(es, k);
    EntriesValidIsKeysValid(RemoveKey(es, k));
  }

  lemma {:induction false} RemoveKeyKeepsEntriesValid(es: seq<Entry>, k: Key)
    requires EntriesValid(es)
    ensures EntriesValid(RemoveKey(es, k))
  {
    if |es| > 0 {
      TailValid(es);
      RemoveKeyKeepsEntriesValid(es[1..], k);
      if es[0].0 != k {
        var rt := RemoveKey(es[1..], k);
        assert RemoveKey(es, k) == [es[0]] + rt;
        HeadBeforeTail(es);
        ConsValid(es[0], rt);
      }
    }
  }

  lemma TailValid(es: seq<Entry>)
    requires EntriesValid(es) && |es| > 0
    ensures EntriesValid(es[1..])
  {
    var tail := es[1..];
    forall i, j | 0 <= i < j < |tail|
      ensures tail[i].0 != tail[j].0 && InOrder(tail[i].0, tail[j].0)
    {
      assert tail[i] == es[i + 1] && tail[j] == es[j + 1];
    }
  }

  lemma HeadBeforeTail(es: seq<Entry>)
    requires EntriesValid(es) && |es| > 0
    ensures forall x | x in es[1..] :: x.0 != es[0].0 && InOrder(es[0].0, x.0)
  {
    forall x | x in es[1..]
      ensures x.0 != es[0].0 && InOrder(es[0].0, x.0)
    {
      var t :| 0 <= t < |es[1..]| && es[1..][t] == x;
      assert es[t + 1] == x;
    }
  }

  lemma ConsValid(e: Entry, rt: seq<Entry>)
    requires EntriesValid(rt)
    requires forall x | x in rt :: x.0 != e.0 && InOrder(e.0, x.0)
    ensures EntriesValid([e] + rt)
  {
    var r := [e] + rt;
    forall i, j | 0 <= i < j < |r|
      ensures r[i].0 != r[j].0 && InOrder(r[i].0, r[j].0)
    {
      assert r[j] == rt[j - 1];
      if i > 0 {
        assert r[i] == rt[i - 1];
      }
    }
  }

  lemma DeleteFacts(m: ParamMap, k: Key)
    ensures var r := ParamMap(RemoveKey(m.entries, k));
      && Get(r, k) == Undefined
      && k !in KeySet(r)
      && (forall k' | k' != k :: Get(r, k') == Get(m, k'))
      && KeySet(r) == KeySet(m) - {k}
      && (Valid(m) ==> Valid(r))
  {
    var r := ParamMap(RemoveKey(m.entries, k));
    LookupRemoveKey(m.entries, k, k);
    forall k' | k' != k
      ensures Get(r, k') == Get(m, k')
    {
      LookupRemoveKey(m.entries, k, k');
    }
    assert KeySet(r) == KeySet(m) - {k} by {
      forall x | x in KeySet(r)
        ensures x in KeySet(m) - {k}
      {
        var i :| 0 <= i < |r.entries| && r.entries[i].0 == x;
        assert r.entries[i] in r.entries;
        var j :| 0 <= j < |m.entries| && m.entries[j] == r.entries[i];
      }
      forall x | x in KeySet(m) - {k}
        ensures x in KeySet(r)
      {
        var i :| 0 <= i < |m.entries| && m.entries[i].0 == x;
        assert m.entries[i] in r.entries;
        var j :| 0 <= j < |r.entries| && r.entries[j] == m.entries[i];
      }
    }
    if Valid(m) {
      RemoveKeyKeepsValid(m.entries, k);
    }
  }
}

=== FILE: save_event_locations.dfy ===
/**
 * The save-event-locations plugin: events whose note (or whose map's
 * note) carries the save tag remember their position and direction in a
 * store on the system object, keyed by (map id, event id), and are put
 * back there whenever the engine places them. The "Set Event Location"
 * event command raises a bypass flag so that its explicit placement is
 * not overridden by the stored one.
 *
 * The engine's own `setPosition`, `setDirection` and the original
 * `locate` are plain field updates here.
 */
module SaveEventLocations {
  import opened Wrappers
  import Notetags

  // ---------------------------------------------------------------------------
  // The store on Game_System

  /** A stored `[x, y, direction]` triple. */
  datatype Location = Location(x: int, y: int, dir: int)

  /** `[mapId, eventId]`; as a property key it becomes "mapId,eventId", which is injective on integer pairs. */
  type LocKey = (int, int)

  /** `_savedEventLocations`; `None` is the field still being `undefined`. */
  datatype System = System(saved: Option<map<LocKey, Location>>)

  /** What the store holds once it has been lazily (re)created. */
  function Table(s: System): map<LocKey, Location> {
    if s.saved.Some? then s.saved.value else map[]
  }

  /** `initialize` / `initSavedEventLocations`: an empty store. */
  function NewSystem(): (s: System)
    ensures s.saved.Some? && forall k :: k !in Table(s)
  {
    System(Some(map[]))
  }

  /** The guard every store accessor runs first: a store that is still undefined is created empty. */
  function EnsureStore(s: System): (r: System)
    ensures r.saved.Some?
    ensures Table(r) == Table(s)
    ensures s.saved.Some? ==> r == s
  {
    if s.saved.None? then NewSystem() else s
  }

  /** `savedEventLocations()`: the store, created first if need be. */
  function SavedEventLocations(s: System): (r: (System, map<LocKey, Location>))
    ensures r.0.saved == Some(r.1)
    ensures r.1 == Table(s)
  {
    var s' := EnsureStore(s);
    (s', s'.saved.value)
  }

  /** `isSavedEventLocation(mapId, eventId)` */
  function IsSavedEventLocation(s: System, mapId: int, eventId: int): (r: (System, bool))
    ensures r.0 == EnsureStore(s)
    ensures r.1 <==> (mapId, eventId) in Table(s)
  {
    var s' := EnsureStore(s);
    (s', (mapId, eventId) in s'.saved.value)
  }

  /**
   * The stored triple behind the three getters. A missing entry makes the
   * getters index `undefined`, a TypeError, modelled as `None`.
   */
  function GetSaved(s: System, mapId: int, eventId: int): (r: (System, Option<Location>))
    ensures r.0 == EnsureStore(s)
    ensures r.1.Some? <==> (mapId, eventId) in Table(s)
    ensures r.1.Some? ==> r.1.value == Table(s)[(mapId, eventId)]
  {
    var s' := EnsureStore(s);
    var k := (mapId, eventId);
    (s', if k in s'.saved.value then Some(s'.saved.value[k]) else None)
  }

  /** `getSavedEventX(mapId, eventId)` */
  function GetSavedEventX(s: System, mapId: int, eventId: int): (r: (System, Option<int>))
    ensures r.0 == EnsureStore(s)
    ensures r.1.Some? <==> (mapId, eventId) in Table(s)
    ensures r.1.Some? ==> r.1.value == Table(s)[(mapId, eventId)].x
  {
    var (s', l) := GetSaved(s, mapId, eventId);
    (s', if l.Some? then Some(l.value.x) else None)
  }

  /** `getSavedEventY(mapId, eventId)` */
  function GetSavedEventY(s: System, mapId: int, eventId: int): (r: (System, Option<int>))
    ensures r.0 == EnsureStore(s)
    ensures r.1.Some? <==> (mapId, eventId) in Table(s)
    ensures r.1.Some? ==> r.1.value == Table(s)[(mapId, eventId)].y
  {
    var (s', l) := GetSaved(s, mapId, eventId);
    (s', if l.Some? then Some(l.value.y) else None)
  }

  /** `getSavedEventDir(mapId, eventId)` */
  function GetSavedEventDir(s: System, mapId: int, eventId: int): (r: (System, Option<int>))
    ensures r.0 == EnsureStore(s)
    ensures r.1.Some? <==> (mapId, eventId) in Table(s)
    ensures r.1.Some? ==> r.1.value == Table(s)[(mapId, eventId)].dir
  {
    var (s', l) := GetSaved(s, mapId, eventId);
    (s', if l.Some? then Some(l.value.dir) else None)
  }

  // ---------------------------------------------------------------------------
  // Map and event data

  /** The parts of `$dataMap` the plugin reads and writes. */
  datatype MapData = MapData(note: string, saveEventLocations: Option<bool>)

  /** The parts of an event's `$dataMap.events[id]` record the plugin uses. */
  datatype EventData = EventData(note: string, x: int, y: int, saveEventLocation: Option<bool>)

  /** A `Game_Event`: its id, position, direction and data record. */
  datatype Event = Event(eventId: int, x: int, y: int, direction: int, originalDirection: int, data: EventData)

  /**
   * The globals the gates consult: `$gameMap.mapId()`, `$dataMap`,
   * `$gameSystem` and `$gameTemp._bypassLoadLocation` (its `undefined` is `false`).
   */
  datatype Game = Game(mapId: int, dataMap: MapData, system: System, bypassLoadLocation: bool)

  /** `processSELNotetags1`: nothing without map data or with an empty note, else the note's flag. */
  function ProcessMapNotetags(dataMap: Option<MapData>): (r: Option<MapData>)
    ensures dataMap.None? ==> r.None?
    ensures dataMap.Some? && dataMap.value.note == "" ==> r == dataMap
    ensures dataMap.Some? && dataMap.value.note != "" ==>
      r == Some(dataMap.value.(saveEventLocations := Some(Notetags.NoteHasTag(dataMap.value.note))))
  {
    Notetags.NoteFlagIsSubstringTest(if dataMap.Some? then dataMap.value.note else "");
    match dataMap
    case None => None
    case Some(d) =>
      if d.note == "" then dataMap
      else Some(d.(saveEventLocations := Some(Notetags.NoteFlag(d.note))))
  }

  /** `processSELNotetags2(obj)`: the event's flag is recomputed from its note. */
  function ProcessEventNotetags(d: EventData): (r: EventData)
    ensures r == d.(saveEventLocation := Some(Notetags.NoteHasTag(d.note)))
  {
    Notetags.NoteFlagIsSubstringTest(d.note);
    d.(saveEventLocation := Some(Notetags.NoteFlag(d.note)))
  }

  /** `$gameMap.isSaveEventLocations()` used as a condition: only `true` passes. */
  predicate MapFlag(g: Game) {
    g.dataMap.saveEventLocations == Some(true)
  }

  /** The event's own flag: the cached one, or the note's when none is cached yet. */
  predicate EventFlag(d: EventData) {
    if d.saveEventLocation.Some? then d.saveEventLocation.value else Notetags.NoteHasTag(d.note)
  }

  /** The cached flag, if any, is the one its note gives. */
  predicate FlagCached(d: EventData) {
    d.saveEventLocation.Some? ==> d.saveEventLocation.value == Notetags.NoteHasTag(d.note)
  }

  function KeyOf(g: Game, ev: Event): LocKey {
    (g.mapId, ev.eventId)
  }

  // ---------------------------------------------------------------------------
  // The gates on Game_Event

  /**
   * `isSaveLocation()`: true when the map flag is set; otherwise the
   * event's flag, computed from its note and cached on first use.
   */
  function IsSaveLocation(g: Game, ev: Event): (r: (Event, bool))
    ensures r.1 <==> MapFlag(g) || EventFlag(ev.data)
    ensures r.0 == ev.(data := r.0.data)
    ensures r.0.data == ev.data.(saveEventLocation := r.0.data.saveEventLocation)
    ensures FlagCached(ev.data) ==> FlagCached(r.0.data)
    ensures EventFlag(r.0.data) == EventFlag(ev.data)
  {
    if MapFlag(g) then (ev, true)
    else
      var d := if ev.data.saveEventLocation.None? then ProcessEventNotetags(ev.data) else ev.data;
      (ev.(data := d), d.saveEventLocation.value)
  }

  /** `$gameSystem.saveEventLocation(mapId, event)`: the event's current triple under its key. */
  function SaveEventLocation(s: System, mapId: int, ev: Event): (r: System)
    ensures r.saved.Some?
    ensures (mapId, ev.eventId) in Table(r)
    ensures Table(r)[(mapId, ev.eventId)] == Location(ev.x, ev.y, ev.direction)
    ensures forall k | k != (mapId, ev.eventId) :: (k in Table(r) <==> k in Table(s))
    ensures forall k | k != (mapId, ev.eventId) && k in Table(s) :: Table(r)[k] == Table(s)[k]
  {
    var s' := EnsureStore(s);
    System(Some(s'.saved.value[(mapId, ev.eventId) := Location(ev.x, ev.y, ev.direction)]))
  }

  /** `saveLocation()`: store the event's triple if it saves its location. */
  function SaveLocation(g: Game, ev: Event): (r: (Game, Event))
    ensures r.1 == IsSaveLocation(g, ev).0
    ensures r.0 == g.(system := r.0.system)
    ensures (MapFlag(g) || EventFlag(ev.data)) ==>
      Table(r.0.system) == Table(g.system)[KeyOf(g, ev) := Location(ev.x, ev.y, ev.direction)]
    ensures !(MapFlag(g) || EventFlag(ev.data)) ==> r.0 == g
  {
    var (ev', save) := IsSaveLocation(g, ev);
    if !save then (g, ev')
    else
      var s := SaveEventLocation(g.system, g.mapId, ev');
      assert Table(s) == Table(g.system)[KeyOf(g, ev) := Location(ev.x, ev.y, ev.direction)];
      (g.(system := s), ev')
  }

  /** `isLoadLocation()`: the event saves its location and a triple is stored for it. */
  function IsLoadLocation(g: Game, ev: Event): (r: (Game, Event, bool))
    ensures r.2 <==> (MapFlag(g) || EventFlag(ev.data)) && KeyOf(g, ev) in Table(g.system)
    ensures r.2 ==> IsSaveLocation(g, ev).1
    ensures r.1 == IsSaveLocation(g, ev).0
    ensures r.0 == g.(system := r.0.system) && Table(r.0.system) == Table(g.system)
  {
    var (ev', save) := IsSaveLocation(g, ev);
    if !save then (g, ev', false)
    else
      var (s, saved) := IsSavedEventLocation(g.system, g.mapId, ev.eventId);
      (g.(system := s), ev', saved)
  }

  /** `loadLocation()`: move to the stored position and turn to the stored direction, if loading applies. */
  function LoadLocation(g: Game, ev: Event): (r: (Game, Event))
    ensures r.0 == g.(system := r.0.system) && Table(r.0.system) == Table(g.system)
    ensures r.1.eventId == ev.eventId && r.1.originalDirection == ev.originalDirection
    ensures r.1.data.note == ev.data.note && EventFlag(r.1.data) == EventFlag(ev.data)
    ensures FlagCached(ev.data) ==> FlagCached(r.1.data)
    ensures IsLoadLocation(g, ev).2 ==>
      var l := Table(g.system)[KeyOf(g, ev)];
      r.1.x == l.x && r.1.y == l.y && r.1.direction == l.dir
    ensures !IsLoadLocation(g, ev).2 ==> r.1.x == ev.x && r.1.y == ev.y && r.1.direction == ev.direction
  {
    var (g1, ev1, load) := IsLoadLocation(g, ev);
    if !load then (g1, ev1)
    else
      var (s2, x) := GetSavedEventX(g1.system, g.mapId, ev.eventId);
      var (s3, y) := GetSavedEventY(s2, g.mapId, ev.eventId);
      var (s4, dir) := GetSavedEventDir(s3, g.mapId, ev.eventId);
      (g1.(system := s4), ev1.(x := x.value, y := y.value, direction := dir.value))
  }

  /** The engine's original `locate(x, y)`: the position only. */
  function OriginalLocate(ev: Event, x: int, y: int): (r: Event)
    ensures r.x == x && r.y == y
    ensures r == ev.(x := r.x, y := r.y)
  {
    ev.(x := x, y := y)
  }

  /**
   * `locate(x, y)`: re-read the event's notetag, place the event, then
   * load the stored location unless the bypass flag is raised.
   */
  function Locate(g: Game, ev: Event, x: int, y: int): (r: (Game, Event))
    ensures r.0 == g.(system := r.0.system) && Table(r.0.system) == Table(g.system)
    ensures r.1.eventId == ev.eventId && r.1.originalDirection == ev.originalDirection
    ensures r.1.data == ProcessEventNotetags(ev.data)
    ensures g.bypassLoadLocation ==> r.0 == g
    ensures g.bypassLoadLocation ==> r.1.x == x && r.1.y == y && r.1.direction == ev.direction
    ensures !g.bypassLoadLocation && (MapFlag(g) || Notetags.NoteHasTag(ev.data.note)) && KeyOf(g, ev) in Table(g.system) ==>
      var l := Table(g.system)[KeyOf(g, ev)];
      r.1.x == l.x && r.1.y == l.y && r.1.direction == l.dir
    ensures !(MapFlag(g) || Notetags.NoteHasTag(ev.data.note)) || KeyOf(g, ev) !in Table(g.system) ==>
      r.1.x == x && r.1.y == y && r.1.direction == ev.direction
  {
    var ev1 := ev.(data := ProcessEventNotetags(ev.data));
    var ev2 := OriginalLocate(ev1, x, y);
    if g.bypassLoadLocation then (g, ev2) else LoadLocation(g, ev2)
  }

  /** The engine's `setDirection(d)`. */
  function SetDirection(ev: Event, d: int): (r: Event)
    ensures r.direction == d && r == ev.(direction := r.direction)
  {
    ev.(direction := d)
  }

  /**
   * `resetLocation()`: back to the position in the map data and the
   * original direction (through the original `locate`, so nothing is
   * loaded), then save that location.
   */
  function ResetLocation(g: Game, ev: Event): (r: (Game, Event))
    ensures r.1.x == ev.data.x && r.1.y == ev.data.y && r.1.direction == ev.originalDirection
    ensures r.1.eventId == ev.eventId && r.1.originalDirection == ev.originalDirection
    ensures r.1.data.note == ev.data.note && r.1.data.x == ev.data.x && r.1.data.y == ev.data.y
    ensures EventFlag(r.1.data) == EventFlag(ev.data)
    ensures FlagCached(ev.data) ==> FlagCached(r.1.data)
    ensures r.0 == g.(system := r.0.system)
    ensures (MapFlag(g) || EventFlag(ev.data)) ==>
      Table(r.0.system) == Table(g.system)[KeyOf(g, ev) := Location(ev.data.x, ev.data.y, ev.originalDirection)]
    ensures !(MapFlag(g) || EventFlag(ev.data)) ==> r.0 == g
  {
    var ev1 := SetDirection(OriginalLocate(ev, ev.data.x, ev.data.y), ev.originalDirection);
    SaveLocation(g, ev1)
  }

  /** `resetAllEventLocations()`: reset every event of the map, in order. */
  function ResetAllEventLocations(g: Game, evs: seq<Event>): (r: (Game, seq<Event>))
    ensures |r.1| == |evs|
    ensures forall i | 0 <= i < |evs| ::
      && r.1[i].x == evs[i].data.x && r.1[i].y == evs[i].data.y
      && r.1[i].direction == evs[i].originalDirection
      && r.1[i].eventId == evs[i].eventId
    ensures r.0 == g.(system := r.0.system)
    ensures forall k | k in Table(g.system) :: k in Table(r.0.system)
    decreases |evs|
  {
    if |evs| == 0 then (g, [])
    else
      var (g1, ev1) := ResetLocation(g, evs[0]);
      var (g2, rest) := ResetAllEventLocations(g1, evs[1..]);
      (g2, [ev1] + rest)
  }

  /** `pluginCommand(command, args)`: only 'ResetAllEventLocations' concerns this plugin. */
  function PluginCommand(g: Game, evs: seq<Event>, command: string): (r: (Game, seq<Event>))
    ensures command == "ResetAllEventLocations" ==>
      && |r.1| == |evs|
      && (forall i | 0 <= i < |evs| ::
            && r.1[i].x == evs[i].data.x && r.1[i].y == evs[i].data.y
            && r.1[i].direction == evs[i].originalDirection)
      && r.0 == g.(system := r.0.system)
    ensures command != "ResetAllEventLocations" ==> r == (g, evs)
  {
    if command == "ResetAllEventLocations" then ResetAllEventLocations(g, evs) else (g, evs)
  }

  /**
   * `command203()` (Set Event Location): run the original command with the
   * bypass flag raised, clear the flag, and hand back the original's result.
   */
  function Command203<R>(g: Game, original: Game -> (Game, R)): (r: (Game, R))
    ensures !r.0.bypassLoadLocation
    ensures r.0 == original(g.(bypassLoadLocation := true)).0.(bypassLoadLocation := false)
    ensures r.1 == original(g.(bypassLoadLocation := true)).1
  {
    var (g1, result) := original(g.(bypassLoadLocation := true));
    (g1.(bypassLoadLocation := false), result)
  }

  // ---------------------------------------------------------------------------
  // Properties

  /** A fresh store holds nothing, and a store still `undefined` reads as empty and is created by the first access. */
  lemma StoreStartsEmpty(mapId: int, eventId: int)
    ensures !IsSavedEventLocation(NewSystem(), mapId, eventId).1
    ensures !IsSavedEventLocation(System(None), mapId, eventId).1
    ensures IsSavedEventLocation(System(None), mapId, eventId).0 == NewSystem()
    ensures GetSavedEventX(System(None), mapId, eventId).1.None?
  {
  }

  /** After saving an event, the store says so and the getters return the event's x, y and direction. */
  lemma SaveThenGet(s: System, mapId: int, ev: Event)
    ensures var s' := SaveEventLocation(s, mapId, ev);
      && IsSavedEventLocation(s', mapId, ev.eventId).1
      && GetSavedEventX(s', mapId, ev.eventId).1 == Some(ev.x)
      && GetSavedEventY(s', mapId, ev.eventId).1 == Some(ev.y)
      && GetSavedEventDir(s', mapId, ev.eventId).1 == Some(ev.direction)
  {
  }

  /** Saving the same key twice keeps only the second triple: the last write wins. */
  lemma LastWriteWins(s: System, mapId: int, ev1: Event, ev2: Event)
    requires ev1.eventId == ev2.eventId
    ensures SaveEventLocation(SaveEventLocation(s, mapId, ev1), mapId, ev2) == SaveEventLocation(s, mapId, ev2)
  {
    var k := (mapId, ev1.eventId);
    var l := Location(ev2.x, ev2.y, ev2.direction);
    assert Table(s)[k := Location(ev1.x, ev1.y, ev1.direction)][k := l] == Table(s)[k := l];
  }

  /** Whether an event saves its location is the map flag, else exactly its note's tag. */
  lemma SaveGateFollowsNote(g: Game, ev: Event)
    requires FlagCached(ev.data)
    ensures IsSaveLocation(g, ev).1 <==> MapFlag(g) || Notetags.NoteHasTag(ev.data.note)
    ensures MapFlag(g) ==> IsSaveLocation(g, ev).1
  {
  }

  /**
   * Saving an event and later placing it anywhere with `locate` puts it
   * back where it was saved, facing the saved direction, however it moved
   * in between.
   */
  lemma SaveThenLocateRestores(g: Game, ev: Event, moved: Event, x: int, y: int)
    requires !g.bypassLoadLocation
    requires FlagCached(ev.data)
    requires MapFlag(g) || Notetags.NoteHasTag(ev.data.note)
    requires moved.eventId == ev.eventId && moved.data.note == ev.data.note
    ensures var (g1, _) := SaveLocation(g, ev);
      var (_, ev2) := Locate(g1, moved, x, y);
      ev2.x == ev.x && ev2.y == ev.y && ev2.direction == ev.direction
  {
    var (g1, _) := SaveLocation(g, ev);
    assert MapFlag(g1) == MapFlag(g);
    assert KeyOf(g1, moved) == KeyOf(g, ev);
    assert Table(g1.system)[KeyOf(g, ev)] == Location(ev.x, ev.y, ev.direction);
  }

  /**
   * "Set Event Location" places the event exactly where the command says,
   * even when a location is stored for it, and leaves the flag cleared.
   */
  lemma SetEventLocationIsNotOverridden(g: Game, ev: Event, x: int, y: int)
    ensures var r := Command203(g, g0 => Locate(g0, ev, x, y));
      && r.1.x == x && r.1.y == y && r.1.direction == ev.direction
      && r.0 == g.(bypassLoadLocation := false)
  {
  }

  /** Without the bypass, `locate` on an event with a stored location overrides the requested position. */
  lemma LocateWithoutBypassLoads(g: Game, ev: Event, x: int, y: int)
    requires !g.bypassLoadLocation && MapFlag(g) && KeyOf(g, ev) in Table(g.system)
    ensures var l := Table(g.system)[KeyOf(g, ev)];
      Locate(g, ev, x, y).1.x == l.x && Locate(g, ev, x, y).1.y == l.y
  {
  }

  /**
   * With distinct event ids, resetting all events stores every saving
   * event's map-data position and original direction.
   */
  lemma {:induction false} ResetAllSavesEveryLocation(g: Game, evs: seq<Event>, i: nat)
    requires forall a, b | 0 <= a < b < |evs| :: evs[a].eventId != evs[b].eventId
    requires i < |evs| && (MapFlag(g) || EventFlag(evs[i].data))
    ensures var r := ResetAllEventLocations(g, evs);
      && KeyOf(g, evs[i]) in Table(r.0.system)
      && Table(r.0.system)[KeyOf(g, evs[i])] == Location(evs[i].data.x, evs[i].data.y, evs[i].originalDirection)
    decreases |evs|
  {
    var (g1, ev1) := ResetLocation(g, evs[0]);
    var rest := evs[1..];
    if i == 0 {
      ResetAllKeepsOthers(g1, rest, KeyOf(g, evs[0]));
    } else {
      assert rest[i - 1] == evs[i];
      assert MapFlag(g1) == MapFlag(g);
      ResetAllSavesEveryLocation(g1, rest, i - 1);
    }
  }

  /** Resetting events with other ids leaves the entry under `k` as it was. */
  lemma {:induction false} ResetAllKeepsOthers(g: Game, evs: seq<Event>, k: LocKey)
    requires forall j | 0 <= j < |evs| :: KeyOf(g, evs[j]) != k
    ensures var r := ResetAllEventLocations(g, evs);
      (k in Table(r.0.system) <==> k in Table(g.system))
      && (k in Table(g.system) ==> Table(r.0.system)[k] == Table(g.system)[k])
    decreases |evs|
  {
    if |evs| > 0 {
      var (g1, ev1) := ResetLocation(g, evs[0]);
      var rest := evs[1..];
      assert forall j | 0 <= j < |rest| :: KeyOf(g1, rest[j]) == KeyOf(g, evs[j + 1]);
      ResetAllKeepsOthers(g1, rest, k);
    }
  }
}

=== FILE: scan_line.dfy ===
/**
 * `GLSLScanLineFilterParam`: the parameter object of the scan-line effect,
 * a time accumulator plus the shared fade machine.
 */
module ScanLine {
  import opened Wrappers
  import Fade

  /** The options object passed to the constructor; `None` is an omitted property. */
  datatype Options = Options(speed: Option<real>, fadeFrame: Option<real>, fadeState: Option<string>)

  datatype Param = Param(time: real, speed: real, fade: Fade.Fade)

  /** `initialize(param)` / `initMembers`: each omitted option takes its default. */
  function New(param: Option<Options>): (p: Param)
    ensures p.time == 0.0 && p.fade.rate == 0.0
    ensures param.None? ==> p.speed == 1.0 && p.fade.frames == 60.0 && p.fade.state == Fade.FADED_OUT
    ensures param.Some? ==> p.speed == param.value.speed.GetOr(1.0)
    ensures param.Some? ==> p.fade.frames == param.value.fadeFrame.GetOr(60.0)
    ensures param.Some? ==> p.fade.state == param.value.fadeState.GetOr(Fade.FADED_OUT)
  {
    // a missing options object behaves as an empty one: every option is omitted
    var o := param.GetOr(Options(None, None, None));
    Param(0.0, o.speed.GetOr(1.0), Fade.Fade(0.0, o.fadeState.GetOr(Fade.FADED_OUT), o.fadeFrame.GetOr(60.0)))
  }

  /** `update()`: `updateTime`, then exactly one `updateFade`. */
  function Update(p: Param): (r: Param)
    ensures r.time == p.time + p.speed / 60.0
    ensures r.fade == Fade.Step(p.fade)
    ensures r.speed == p.speed
  {
    p.(time := p.time + 1.0 / 60.0 * p.speed, fade := Fade.Step(p.fade))
  }

  /** `n` frames of `update()`. */
  function UpdateN(p: Param, n: nat): Param
    decreases n
  {
    if n == 0 then p else UpdateN(Update(p), n - 1)
  }

  /** A script command on the parameter, or a frame. */
  function Apply(p: Param, c: Fade.Command): Param {
    match c
    case Update => Update(p)
    case _ => p.(fade := Fade.Apply(p.fade, c))
  }

  function ApplyAll(p: Param, cs: seq<Fade.Command>): Param
    decreases |cs|
  {
    if |cs| == 0 then p else ApplyAll(Apply(p, cs[0]), cs[1..])
  }

  // ---------------------------------------------------------------------------
  // Properties

  /**
   * Each option left out of the options object takes its documented
   * default on its own, whatever the other options are; with no options
   * object at all every option takes its default.
   */
  lemma OmittedOptionsTakeDefaults(o: Options)
    ensures var p := New(Some(o));
      && (o.speed.None? ==> p.speed == 1.0)
      && (o.fadeFrame.None? ==> p.fade.frames == 60.0)
      && (o.fadeState.None? ==> p.fade.state == "fadedOut")
    ensures New(None) == Param(0.0, 1.0, Fade.Fade(0.0, "fadedOut", 60.0))
    ensures New(Some(Options(None, None, None))) == New(None)
  {
  }

  /** Every option that is given is used as it is. */
  lemma GivenOptionsAreKept(o: Options)
    ensures var p := New(Some(o));
      && (o.speed.Some? ==> p.speed == o.speed.value)
      && (o.fadeFrame.Some? ==> p.fade.frames == o.fadeFrame.value)
      && (o.fadeState.Some? ==> p.fade.state == o.fadeState.value)
  {
  }

  /** Commands and frames on the parameter drive its fade exactly as on the bare fade machine. */
  lemma {:induction false} CommandsDriveFade(p: Param, cs: seq<Fade.Command>)
    ensures ApplyAll(p, cs).fade == Fade.ApplyAll(p.fade, cs)
    ensures ApplyAll(p, cs).speed == p.speed
    decreases |cs|
  {
    if |cs| > 0 {
      CommandsDriveFade(Apply(p, cs[0]), cs[1..]);
    }
  }

  /** With a non-negative frame count the rate stays in [0, 1] across every command and frame. */
  lemma RateStaysInUnit(p: Param, cs: seq<Fade.Command>)
    requires p.fade.frames >= 0.0 && Fade.InUnit(p.fade.rate)
    ensures Fade.InUnit(ApplyAll(p, cs).fade.rate)
  {
    CommandsDriveFade(p, cs);
    Fade.RateStaysInUnit(p.fade, cs);
  }

  /** Over `n` frames time grows by `n * speed / 60` and the fade advances exactly `n` steps. */
  lemma {:induction false} FramesAdvanceTimeAndFade(p: Param, n: nat)
    ensures UpdateN(p, n).time == p.time + n as real * p.speed / 60.0
    ensures UpdateN(p, n).fade == Fade.StepN(p.fade, n)
    ensures UpdateN(p, n).speed == p.speed
    decreases n
  {
    if n > 0 {
      FramesAdvanceTimeAndFade(Update(p), n - 1);
    }
  }

  /**
   * 'fadingIn' ends in 'fadedIn' at rate 1, and 'fadingOut' in 'fadedOut'
   * at rate 0, within ⌈fadeFrame⌉ frames.
   */
  lemma FadesCompleteWithinFadeFrame(p: Param)
    requires p.fade.frames > 0.0 && Fade.InUnit(p.fade.rate)
    ensures p.fade.state == Fade.FADING_IN ==>
      UpdateN(p, Fade.Ceil(p.fade.frames)).fade == Fade.Fade(1.0, Fade.FADED_IN, p.fade.frames)
    ensures p.fade.state == Fade.FADING_OUT ==>
      UpdateN(p, Fade.Ceil(p.fade.frames)).fade == Fade.Fade(0.0, Fade.FADED_OUT, p.fade.frames)
  {
    FramesAdvanceTimeAndFade(p, Fade.Ceil(p.fade.frames));
    if p.fade.state == Fade.FADING_IN {
      Fade.FadingInCompletes(p.fade);
    } else if p.fade.state == Fade.FADING_OUT {
      Fade.FadingOutCompletes(p.fade);
    }
  }

  /** Settled or unrecognised fade states do not move, however many frames pass. */
  lemma SettledFadeStaysPut(p: Param, n: nat)
    requires p.fade.state != Fade.FADING_IN && p.fade.state != Fade.FADING_OUT
    ensures UpdateN(p, n).fade == p.fade
  {
    FramesAdvanceTimeAndFade(p, n);
    Fade.SettledIsFixedPoint(p.fade, n);
  }
}

=== FILE: seqs.dfy ===
/**
 * Sequence vocabulary used to state what the list-rewriting code keeps,
 * drops and reorders: multiplicities, order-preserving filtering and
 * subsequences.
 */
module Seqs {

  /** How many times `x` occurs in `s`. */
  function Count<T(==)>(s: seq<T>, x: T): nat
  {
    if |s| == 0 then 0 else (if s[0] == x then 1 else 0) + Count(s[1..], x)
  }

  /** `Array.prototype.filter`: the elements satisfying `p`, in their original order. */
  function Filter<T>(s: seq<T>, p: T -> bool): (r: seq<T>)
    ensures |r| <= |s|
    ensures forall x :: x in r ==> x in s && p(x)
    ensures forall x :: x in s && p(x) ==> x in r
  {
    if |s| == 0 then []
    else (if p(s[0]) then [s[0]] else []) + Filter(s[1..], p)
  }

  /** `a` can be obtained from `b` by deleting elements (greedy left-to-right matching). */
  predicate IsSubseq<T(==)>(a: seq<T>, b: seq<T>)
    decreases |b|
  {
    |a| == 0 || (|b| > 0 && if a[0] == b[0] then IsSubseq(a[1..], b[1..]) else IsSubseq(a, b[1..]))
  }

  /** No element occurs twice. */
  predicate Distinct<T(==)>(s: seq<T>)
  {
    forall i, j | 0 <= i < j < |s| :: s[i] != s[j]
  }

  lemma {:induction false} CountAppend<T>(a: seq<T>, b: seq<T>, x: T)
    ensures Count(a + b, x) == Count(a, x) + Count(b, x)
  {
    if |a| == 0 {
      assert a + b == b;
    } else {
      assert (a + b)[1..] == a[1..] + b;
      CountAppend(a[1..], b, x);
    }
  }

  lemma {:induction false} CountZeroIffAbsent<T>(s: seq<T>, x: T)
    ensures Count(s, x) == 0 <==> x !in s
  {
    if |s| > 0 {
      CountZeroIffAbsent(s[1..], x);
      assert s == [s[0]] + s[1..];
    }
  }

  /** Filtering keeps every element satisfying `p` as often as it occurred, and drops the rest. */
  lemma {:induction false} FilterCount<T>(s: seq<T>, p: T -> bool, x: T)
    ensures Count(Filter(s, p), x) == if p(x) then Count(s, x) else 0
  {
    if |s| > 0 {
      FilterCount(s[1..], p, x);
      CountAppend(if p(s[0]) then [s[0]] else [], Filter(s[1..], p), x);
    }
  }

  /** Filtering preserves the relative order of what it keeps. */
  lemma {:induction false} FilterIsSubseq<T>(s: seq<T>, p: T -> bool)
    ensures IsSubseq(Filter(s, p), s)
  {
    if |s| > 0 {
      FilterIsSubseq(s[1..], p);
      var r := Filter(s, p);
      if p(s[0]) {
        assert r == [s[0]] + Filter(s[1..], p);
        assert r[1..] == Filter(s[1..], p);
      } else {
        assert r == Filter(s[1..], p);
        if |r| > 0 {
          assert r[0] in r;
          assert r[0] != s[0];
        }
      }
    }
  }

  /** Filtering with the always-true predicate on the kept elements is the identity. */
  lemma {:induction false} FilterAllKept<T>(s: seq<T>, p: T -> bool)
    requires forall i | 0 <= i < |s| :: p(s[i])
    ensures Filter(s, p) == s
  {
    if |s| > 0 {
      FilterAllKept(s[1..], p);
      assert s == [s[0]] + s[1..];
    }
  }

  /** In a sequence without repetitions, every element occurs exactly once. */
  lemma {:induction false} DistinctCount<T>(s: seq<T>, x: T)
    requires Distinct(s) && x in s
    ensures Count(s, x) == 1
  {
    if s[0] == x {
      assert x !in s[1..];
      CountZeroIffAbsent(s[1..], x);
    } else {
      assert Distinct(s[1..]) by {
        forall i, j | 0 <= i < j < |s[1..]|
          ensures s[1..][i] != s[1..][j]
        {
          assert s[1..][i] == s[i + 1] && s[1..][j] == s[j + 1];
        }
      }
      DistinctCount(s[1..], x);
    }
  }
}

=== FILE: shader_load.dfy ===
/**
 * How a `GLSLFilter` loads its two shader sources. Each source has a
 * loader; a loader without a URL is ready at once and never calls its
 * handlers, one with a URL becomes ready when its request completes,
 * after running its handlers. The vertex handler starts the filter's
 * `onLoad` if the fragment loader is ready, and the other way round, so
 * `onLoad` runs when the second of the two requested sources arrives.
 *
 * Request completions are abstract events: a run is the load call
 * followed by the completions in some order. The trace records what the
 * filter observes.
 */
module ShaderLoad {
  import opened Wrappers
  import opened Seqs

  const DIR_NAME: string := "glsl/"

  /** `generateURL(name, ext)`: no URL for an empty name, else the shader directory, the name and the extension. */
  function GenerateURL(name: string, ext: string): (r: Option<string>)
    ensures r.None? <==> name == ""
    ensures r.Some? ==>
      && |r.value| == |DIR_NAME| + |name| + |ext|
      && r.value[..|DIR_NAME|] == DIR_NAME
      && r.value[|DIR_NAME|..|DIR_NAME| + |name|] == name
      && r.value[|DIR_NAME| + |name|..] == ext
  {
    if name == "" then None else Some(DIR_NAME + name + ext)
  }

  datatype Side = Vert | Frag

  function Other(side: Side): Side {
    if side == Vert then Frag else Vert
  }

  /** A `GLSLSourceLoader`: its URL (`None` for null) and its ready flag. */
  datatype Loader = Loader(url: Option<string>, ready: bool)

  /** What the filter observes, in order. */
  datatype Event =
    | LoaderHandler(side: Side)
    | OnLoad(vertReady: bool, fragReady: bool)  // `onLoad` starts; the loaders' flags at that moment
    | FilterHandlers                             // `_loadHandlers` run
    | FilterReady                                // `_ready = true`

  datatype Join = Join(vert: Loader, frag: Loader, ready: bool, trace: seq<Event>)

  function LoaderOf(j: Join, side: Side): Loader {
    if side == Vert then j.vert else j.frag
  }

  function WithLoader(j: Join, side: Side, l: Loader): (r: Join)
    ensures LoaderOf(r, side) == l && LoaderOf(r, Other(side)) == LoaderOf(j, Other(side))
    ensures r.ready == j.ready && r.trace == j.trace
  {
    if side == Vert then j.(vert := l) else j.(frag := l)
  }

  /** `initVertSrcLoader` / `initFragSrcLoader`: loaders for the two URLs, nothing ready. */
  function New(vertUrl: Option<string>, fragUrl: Option<string>): (j: Join)
    ensures !j.vert.ready && !j.frag.ready && !j.ready && j.trace == []
    ensures j.vert.url == vertUrl && j.frag.url == fragUrl
  {
    Join(Loader(vertUrl, false), Loader(fragUrl, false), false, [])
  }

  /** `GLSLSourceLoader.load()`: without a URL the loader is ready at once; otherwise a request is sent. */
  function LoadLoader(l: Loader): (r: Loader)
    ensures r.url == l.url
    ensures r.ready <==> l.ready || l.url.None?
  {
    if l.url.None? then l.(ready := true) else l
  }

  /** `GLSLFilter.load()`: the vertex loader, then the fragment loader. No handler runs synchronously. */
  function Load(j: Join): (r: Join)
    ensures r.trace == j.trace && r.ready == j.ready
    ensures r.vert == LoadLoader(j.vert) && r.frag == LoadLoader(j.frag)
  {
    j.(vert := LoadLoader(j.vert), frag := LoadLoader(j.frag))
  }

  /** `GLSLFilter.onLoad()`: set up the filter, run the load handlers, then mark the filter ready. */
  function FilterOnLoad(j: Join): (r: Join)
    ensures r.ready
    ensures r.trace == j.trace + [OnLoad(j.vert.ready, j.frag.ready), FilterHandlers, FilterReady]
    ensures r.vert == j.vert && r.frag == j.frag
  {
    j.(trace := j.trace + [OnLoad(j.vert.ready, j.frag.ready), FilterHandlers, FilterReady], ready := true)
  }

  /**
   * The request of `side` completes: the loader runs its handler
   * (`onVertLoaded` or `onFragLoaded`, which starts `onLoad` when the
   * other loader is ready) and only then marks itself ready.
   */
  function Complete(j: Join, side: Side): (r: Join)
    ensures LoaderOf(r, side).ready && LoaderOf(r, side).url == LoaderOf(j, side).url
    ensures LoaderOf(r, Other(side)) == LoaderOf(j, Other(side))
    ensures |r.trace| > |j.trace| && r.trace[..|j.trace|] == j.trace && r.trace[|j.trace|] == LoaderHandler(side)
    ensures r.ready <==> j.ready || LoaderOf(j, Other(side)).ready
    ensures Count(r.trace, FilterHandlers) == Count(j.trace, FilterHandlers) + (if LoaderOf(j, Other(side)).ready then 1 else 0)
  {
    var j1 := j.(trace := j.trace + [LoaderHandler(side)]);
    var j2 := if LoaderOf(j, Other(side)).ready then FilterOnLoad(j1) else j1;
    var r := WithLoader(j2, side, LoaderOf(j2, side).(ready := true));
    assert r.trace[..|j.trace|] == j.trace by {
      assert j2.trace[..|j.trace|] == j.trace;
    }
    HandlerCount(j.trace, side, j1.vert.ready, j1.frag.ready);
    r
  }

  lemma HandlerCount(t: seq<Event>, side: Side, vr: bool, fr: bool)
    ensures Count(t + [LoaderHandler(side)], FilterHandlers) == Count(t, FilterHandlers)
    ensures Count(t + [LoaderHandler(side)] + [OnLoad(vr, fr), FilterHandlers, FilterReady], FilterHandlers) ==
      Count(t, FilterHandlers) + 1
  {
    var h := [LoaderHandler(side)];
    var o := [OnLoad(vr, fr), FilterHandlers, FilterReady];
    CountAppend(t, h, FilterHandlers);
    CountAppend(t + h, o, FilterHandlers);
    assert h[1..] == [];
    assert o[1..] == [FilterHandlers, FilterReady] && o[1..][1..] == [FilterReady] && o[1..][1..][1..] == [];
    assert Count(o[1..][1..], FilterHandlers) == 0;
    assert Count(o[1..], FilterHandlers) == 1;
    assert Count(o, FilterHandlers) == 1;
  }

  function CompleteAll(j: Join, order: seq<Side>): Join
    decreases |order|
  {
    if |order| == 0 then j else CompleteAll(Complete(j, order[0]), order[1..])
  }

  /** The sides that send a request: those with a URL. */
  function Requested(vertUrl: Option<string>, fragUrl: Option<string>): seq<Side> {
    (if vertUrl.Some? then [Vert] else []) + (if fragUrl.Some? then [Frag] else [])
  }

  /** The orders in which the sent requests can complete: each exactly once, in either order. */
  predicate CompletionOrder(vertUrl: Option<string>, fragUrl: Option<string>, order: seq<Side>) {
    multiset(order) == multiset(Requested(vertUrl, fragUrl))
  }

  /** A whole load: create the loaders, call `load()`, then let the requests complete in `order`. */
  function Run(vertUrl: Option<string>, fragUrl: Option<string>, order: seq<Side>): Join {
    CompleteAll(Load(New(vertUrl, fragUrl)), order)
  }

  // ---------------------------------------------------------------------------
  // Properties

  /** `onLoad` ran when the loader that did not start it was already ready. */
  predicate OnLoadSawOtherReady(trace: seq<Event>) {
    forall i | 0 <= i < |trace| && trace[i].OnLoad? ::
      && i >= 1 && trace[i - 1].LoaderHandler?
      && (if trace[i - 1].side == Vert then trace[i].fragReady else trace[i].vertReady)
  }

  /** The filter is marked ready only right after its load handlers ran. */
  predicate ReadyAfterHandlers(trace: seq<Event>) {
    forall i | 0 <= i < |trace| && trace[i] == FilterReady :: i >= 1 && trace[i - 1] == FilterHandlers
  }

  /** Everything the join promises about a finished run. */
  predicate JoinOutcome(vertUrl: Option<string>, fragUrl: Option<string>, r: Join) {
    && Count(r.trace, FilterHandlers) == (if vertUrl.Some? || fragUrl.Some? then 1 else 0)
    && (r.ready <==> vertUrl.Some? || fragUrl.Some?)
    && r.vert.ready && r.frag.ready
    && OnLoadSawOtherReady(r.trace)
    && ReadyAfterHandlers(r.trace)
  }

  /**
   * Whatever order the requests complete in, `onLoad` and the load
   * handlers run exactly once when at least one URL exists and never
   * otherwise; the filter ends ready exactly then; `onLoad` always finds
   * the other loader ready, and readiness follows the handlers.
   */
  lemma JoinFiresOnce(vertUrl: Option<string>, fragUrl: Option<string>, order: seq<Side>)
    requires CompletionOrder(vertUrl, fragUrl, order)
    ensures JoinOutcome(vertUrl, fragUrl, Run(vertUrl, fragUrl, order))
  {
    OrdersAre(vertUrl, fragUrl, order);
    if |order| == 0 {
      NoRequest(vertUrl, fragUrl);
    } else if |order| == 1 {
      OneRequest(vertUrl, fragUrl, order[0]);
    } else {
      TwoRequests(vertUrl, fragUrl, order[0]);
    }
  }

  lemma NoRequest(vertUrl: Option<string>, fragUrl: Option<string>)
    requires vertUrl.None? && fragUrl.None?
    ensures JoinOutcome(vertUrl, fragUrl, Run(vertUrl, fragUrl, []))
  {
    assert Run(vertUrl, fragUrl, []).trace == [];
  }

  lemma OneRequest(vertUrl: Option<string>, fragUrl: Option<string>, side: Side)
    requires LoaderOf(New(vertUrl, fragUrl), side).url.Some? && LoaderOf(New(vertUrl, fragUrl), Other(side)).url.None?
    ensures JoinOutcome(vertUrl, fragUrl, Run(vertUrl, fragUrl, [side]))
  {
    var j0 := Load(New(vertUrl, fragUrl));
    var j1 := Complete(j0, side);
    assert Run(vertUrl, fragUrl, [side]) == j1 by {
      assert [side][1..] == [];
      assert CompleteAll(j1, []) == j1;
      assert CompleteAll(j0, [side]) == CompleteAll(j1, [side][1..]);
    }
    assert j1.trace == [LoaderHandler(side), OnLoad(j0.vert.ready, j0.frag.ready), FilterHandlers, FilterReady];
  }

  lemma TwoRequests(vertUrl: Option<string>, fragUrl: Option<string>, first: Side)
    requires vertUrl.Some? && fragUrl.Some?
    ensures JoinOutcome(vertUrl, fragUrl, Run(vertUrl, fragUrl, [first, Other(first)]))
  {
    var j0 := Load(New(vertUrl, fragUrl));
    var j1 := Complete(j0, first);
    var j2 := Complete(j1, Other(first));
    assert Run(vertUrl, fragUrl, [first, Other(first)]) == j2 by {
      var o := [first, Other(first)];
      assert o[1..] == [Other(first)] && o[1..][1..] == [];
      assert CompleteAll(j2, []) == j2;
      assert CompleteAll(j1, o[1..]) == CompleteAll(j2, o[1..][1..]);
      assert CompleteAll(j0, o) == CompleteAll(j1, o[1..]);
    }
    assert j1.trace == [LoaderHandler(first)];
    assert j2.trace == [LoaderHandler(first), LoaderHandler(Other(first)), OnLoad(j1.vert.ready, j1.frag.ready), FilterHandlers, FilterReady];
  }

  /** The completion orders, listed: none, one side alone, or both sides in either order. */
  lemma OrdersAre(vertUrl: Option<string>, fragUrl: Option<string>, order: seq<Side>)
    requires CompletionOrder(vertUrl, fragUrl, order)
    ensures vertUrl.None? && fragUrl.None? ==> order == []
    ensures vertUrl.Some? && fragUrl.None? ==> order == [Vert]
    ensures vertUrl.None? && fragUrl.Some? ==> order == [Frag]
    ensures vertUrl.Some? && fragUrl.Some? ==> |order| == 2 && order == [order[0], Other(order[0])]
  {
    var req := Requested(vertUrl, fragUrl);
    assert |order| == |multiset(order)| == |multiset(req)| == |req|;
    if |order| >= 1 {
      assert order[0] in multiset(req);
    }
    if |order| == 2 {
      assert order == [order[0], order[1]];
      assert multiset(order) == multiset{order[0], order[1]};
      assert order[0] != order[1];
    }
  }

  /** Two shader names with the same extension give different URLs, and an empty name none at all. */
  lemma URLsAreDistinct(name1: string, name2: string, ext: string)
    requires name1 != name2 && name1 != "" && name2 != ""
    ensures GenerateURL(name1, ext) != GenerateURL(name2, ext)
  {
  }

  /**
   * The heat-haze and scan-line filters have no vertex shader: the vertex
   * loader is ready at `load()`, and the fragment source's arrival alone
   * loads the filter.
   */
  lemma FragmentOnlyFilterLoads(fragName: string)
    requires fragName != ""
    ensures var r := Run(GenerateURL("", ".txt"), GenerateURL(fragName, ".txt"), [Frag]);
      && r.ready
      && r.trace == [LoaderHandler(Frag), OnLoad(true, false), FilterHandlers, FilterReady]
  {
    var j0 := Load(New(None, GenerateURL(fragName, ".txt")));
    var j1 := Complete(j0, Frag);
    assert CompleteAll(j1, []) == j1;
    assert [Frag][1..] == [];
  }
}

=== FILE: sprite_filters.dfy ===
/**
 * The per-frame reconciliation that keeps a sprite's `filters` list in
 * step with its filter-parameter map: shader filters whose parameter has
 * left the map are dropped, one shader filter is started loading for each
 * parameter that neither an active nor a loading filter covers, and a
 * filter that finishes loading is appended just before a single trailing
 * dummy filter.
 *
 * Filters are compared by identity: every shader filter carries the
 * fresh id it was created with, and its parameter object's identity.
 */
module SpriteFilters {
  import opened Wrappers
  import opened JsValues
  import opened Seqs
  import ParamMaps

  /** A `GLSLFilter`: its identity and its parameter object. */
  datatype ShaderFilter = ShaderFilter(id: nat, param: ObjId)

  /** An element of `filters`: the shared dummy filter, a shader filter, or a filter some other code added. */
  datatype Filter = Dummy | Shader(shader: ShaderFilter) | Foreign(id: nat)

  /**
   * The sprite state the reconciliation touches: `filters` (`None` while
   * it is null or undefined), `_glslFiltersLoading`, and the source of
   * fresh filter identities.
   */
  datatype Sprite = Sprite(filters: Option<seq<Filter>>, loading: seq<ShaderFilter>, nextId: nat)

  /** The sprite's filter list, read as empty while `filters` is unset. */
  function FilterList(s: Sprite): seq<Filter> {
    s.filters.GetOr([])
  }

  /** The parameter objects of a list of shader filters, in order. */
  function ParamsOf(fs: seq<ShaderFilter>): (r: seq<Value>)
    ensures |r| == |fs|
    ensures forall v :: v in r <==> v.Obj? && exists g | g in fs :: g.param == v.id
  {
    var r := seq(|fs|, i requires 0 <= i < |fs| => Obj(fs[i].param));
    assert forall v :: v in r <==> v.Obj? && exists g | g in fs :: g.param == v.id by {
      forall v
        ensures v in r <==> v.Obj? && exists g | g in fs :: g.param == v.id
      {
        if v.Obj? && exists g | g in fs :: g.param == v.id {
          var g :| g in fs && g.param == v.id;
          var i :| 0 <= i < |fs| && fs[i] == g;
          assert r[i] == v;
        }
      }
    }
    r
  }

  /** The shader filters of a filter list, in order. */
  function Shaders(fs: seq<Filter>): (r: seq<ShaderFilter>)
    ensures forall g :: g in r <==> Shader(g) in fs
  {
    if |fs| == 0 then []
    else
      var rest := Shaders(fs[1..]);
      assert forall g :: Shader(g) in fs <==> Shader(g) == fs[0] || Shader(g) in fs[1..] by {
        assert fs == [fs[0]] + fs[1..];
      }
      (if fs[0].Shader? then [fs[0].shader] else []) + rest
  }

  /** `glslFilters()`: the shader filters in `filters`, none when it is unset. */
  function GlslFilters(s: Sprite): (r: seq<ShaderFilter>)
    ensures forall g :: g in r <==> Shader(g) in FilterList(s)
  {
    Shaders(FilterList(s))
  }

  /** `glslFilterParams()`: parameters of the active shader filters, then of the loading ones. */
  function GlslFilterParams(s: Sprite): (r: seq<Value>)
    ensures forall v :: v in r <==>
      (v.Obj? && ((exists g | g in GlslFilters(s) :: g.param == v.id) || (exists g | g in s.loading :: g.param == v.id)))
  {
    var fs := GlslFilters(s) + s.loading;
    assert forall g :: g in fs <==> g in GlslFilters(s) || g in s.loading;
    ParamsOf(fs)
  }

  // ---------------------------------------------------------------------------
  // cleanGLSLFilters

  /** The filter survives cleaning: it is not a shader filter, or its parameter is still in the map. */
  predicate Keep(values: seq<Value>, f: Filter) {
    !f.Shader? || Obj(f.shader.param) in values
  }

  function KeepIn(values: seq<Value>): Filter -> bool {
    f => Keep(values, f)
  }

  /** `cleanGLSLFilters()`, with `values` the map's `values()`. */
  function Clean(s: Sprite, values: seq<Value>): (r: Sprite)
    ensures r.loading == s.loading && r.nextId == s.nextId
    ensures s.filters.None? ==> r == s
    ensures s.filters.Some? ==> r.filters.Some?
    ensures s.filters.Some? ==> IsSubseq(r.filters.value, s.filters.value)
    ensures s.filters.Some? ==> forall x ::
      Count(r.filters.value, x) == if Keep(values, x) then Count(s.filters.value, x) else 0
  {
    match s.filters
    case None => s
    case Some(fs) =>
      var kept := Seqs.Filter(fs, KeepIn(values));
      FilterIsSubseq(fs, KeepIn(values));
      assert forall x :: Count(kept, x) == if Keep(values, x) then Count(fs, x) else 0 by {
        forall x
          ensures Count(kept, x) == if Keep(values, x) then Count(fs, x) else 0
        {
          FilterCount(fs, KeepIn(values), x);
        }
      }
      s.(filters := Some(kept))
  }

  // ---------------------------------------------------------------------------
  // assortGLSLFilters

  function NotIn(covered: seq<Value>): Value -> bool {
    v => v !in covered
  }

  /**
   * The `forEach` of `assortGLSLFilters` over `vs`, checking against the
   * parameter list `covered` taken before the loop. A parameter that is
   * not an object has no `filterClass`: a TypeError, which stops the loop.
   */
  function AssortFrom(s: Sprite, covered: seq<Value>, vs: seq<Value>): (r: Result<Sprite>)
    ensures r.Success? ==>
      && r.value.filters == s.filters
      && |s.loading| <= |r.value.loading|
      && r.value.loading[..|s.loading|] == s.loading
      && r.value.nextId == s.nextId + (|r.value.loading| - |s.loading|)
    decreases |vs|
  {
    if |vs| == 0 then Success(s)
    else if vs[0] in covered then AssortFrom(s, covered, vs[1..])
    else if !vs[0].Obj? then Failure("TypeError: the parameter has no filterClass")
    else
      var s' := s.(loading := s.loading + [ShaderFilter(s.nextId, vs[0].id)], nextId := s.nextId + 1);
      var r := AssortFrom(s', covered, vs[1..]);
      if r.Success? then
        assert r.value.loading[..|s.loading|] == r.value.loading[..|s'.loading|][..|s.loading|];
        r
      else r
  }

  /** The loop fails exactly when it meets an uncovered value that is not an object. */
  lemma {:induction false} AssortFromFails(s: Sprite, covered: seq<Value>, vs: seq<Value>)
    ensures AssortFrom(s, covered, vs).Failure? <==> exists i | 0 <= i < |vs| :: vs[i] !in covered && !vs[i].Obj?
    decreases |vs|
  {
    if |vs| > 0 {
      assert forall i | 1 <= i < |vs| :: vs[i] == vs[1..][i - 1];
      if vs[0] in covered {
        AssortFromFails(s, covered, vs[1..]);
      } else if vs[0].Obj? {
        var s' := s.(loading := s.loading + [ShaderFilter(s.nextId, vs[0].id)], nextId := s.nextId + 1);
        AssortFromFails(s', covered, vs[1..]);
      }
    }
  }

  /** The loop starts one filter per uncovered value, in the order of `vs`. */
  lemma {:induction false} AssortFromStarts(s: Sprite, covered: seq<Value>, vs: seq<Value>)
    requires AssortFrom(s, covered, vs).Success?
    ensures var l := AssortFrom(s, covered, vs).value.loading;
      ParamsOf(l[|s.loading|..]) == Seqs.Filter(vs, NotIn(covered))
    decreases |vs|
  {
    if |vs| > 0 {
      if vs[0] in covered {
        AssortFromStarts(s, covered, vs[1..]);
      } else {
        var f := ShaderFilter(s.nextId, vs[0].id);
        var s' := s.(loading := s.loading + [f], nextId := s.nextId + 1);
        AssortFromStarts(s', covered, vs[1..]);
        var l := AssortFrom(s', covered, vs[1..]).value.loading;
        assert Seqs.Filter(vs, NotIn(covered)) == [vs[0]] + Seqs.Filter(vs[1..], NotIn(covered));
        StartedSplit(s, f, l);
      }
    }
  }

  /** The filters the loop starts carry consecutive fresh identities. */
  lemma {:induction false} AssortFromIds(s: Sprite, covered: seq<Value>, vs: seq<Value>)
    requires AssortFrom(s, covered, vs).Success?
    ensures var l := AssortFrom(s, covered, vs).value.loading;
      forall i | |s.loading| <= i < |l| :: l[i].id == s.nextId + (i - |s.loading|)
    decreases |vs|
  {
    if |vs| > 0 {
      if vs[0] in covered {
        AssortFromIds(s, covered, vs[1..]);
      } else {
        var f := ShaderFilter(s.nextId, vs[0].id);
        var s' := s.(loading := s.loading + [f], nextId := s.nextId + 1);
        AssortFromIds(s', covered, vs[1..]);
      }
    }
  }

  lemma StartedSplit(s: Sprite, f: ShaderFilter, l: seq<ShaderFilter>)
    requires |s.loading| + 1 <= |l| && l[..|s.loading| + 1] == s.loading + [f]
    ensures ParamsOf(l[|s.loading|..]) == [Obj(f.param)] + ParamsOf(l[|s.loading| + 1..])
  {
    assert l[|s.loading|..] == [f] + l[|s.loading| + 1..] by {
      assert l[|s.loading|] == (s.loading + [f])[|s.loading|];
    }
    ParamsOfAppend([f], l[|s.loading| + 1..]);
  }

  /** `assortGLSLFilters()`, with `values` the map's `values()`. */
  function Assort(s: Sprite, values: seq<Value>): (r: Result<Sprite>)
    ensures r.Failure? <==> exists i | 0 <= i < |values| :: values[i] !in GlslFilterParams(s) && !values[i].Obj?
    ensures r.Success? ==> r.value.filters == s.filters && r.value.nextId >= s.nextId
    ensures r.Success? ==> |s.loading| <= |r.value.loading| && r.value.loading[..|s.loading|] == s.loading
  {
    AssortFromFails(s, GlslFilterParams(s), values);
    AssortFrom(s, GlslFilterParams(s), values)
  }

  // ---------------------------------------------------------------------------
  // onFilterLoaded

  predicate NotDummy(f: Filter) {
    f != Dummy
  }

  function Other(f: ShaderFilter): ShaderFilter -> bool {
    g => g != f
  }

  /**
   * `onFilterLoaded(filter)`: drop every dummy, append the loaded filter
   * and one dummy, and take the filter off the loading list.
   */
  function OnFilterLoaded(s: Sprite, f: ShaderFilter): (r: Sprite)
    ensures r.filters.Some? && r.nextId == s.nextId
    ensures var out := r.filters.value;
      && |out| >= 2 && out[|out| - 1] == Dummy && out[|out| - 2] == Shader(f)
      && Count(out, Dummy) == 1
      && forall x | x != Dummy :: Count(out, x) == Count(FilterList(s), x) + (if x == Shader(f) then 1 else 0)
    ensures var out := r.filters.value; IsSubseq(out[..|out| - 2], FilterList(s))
    ensures f !in r.loading
    ensures forall g | g != f :: Count(r.loading, g) == Count(s.loading, g)
  {
    var fs := FilterList(s);
    var kept := Seqs.Filter(fs, NotDummy);
    var out := kept + [Shader(f), Dummy];
    var loading := Seqs.Filter(s.loading, Other(f));
    FilterIsSubseq(fs, NotDummy);
    assert out[..|out| - 2] == kept;
    assert [Shader(f), Dummy][1..] == [Dummy] && [Dummy][1..] == [];
    assert Count(out, Dummy) == 1 by {
      CountAppend(kept, [Shader(f), Dummy], Dummy);
      FilterCount(fs, NotDummy, Dummy);
    }
    assert forall x | x != Dummy :: Count(out, x) == Count(fs, x) + (if x == Shader(f) then 1 else 0) by {
      forall x | x != Dummy
        ensures Count(out, x) == Count(fs, x) + (if x == Shader(f) then 1 else 0)
      {
        CountAppend(kept, [Shader(f), Dummy], x);
        FilterCount(fs, NotDummy, x);
      }
    }
    assert forall g | g != f :: Count(loading, g) == Count(s.loading, g) by {
      forall g | g != f
        ensures Count(loading, g) == Count(s.loading, g)
      {
        FilterCount(s.loading, Other(f), g);
      }
    }
    Sprite(Some(out), loading, s.nextId)
  }

  // ---------------------------------------------------------------------------
  // The frame update

  /** `refreshGLSLFilters()`: nothing without a parameter map, else clean then assort. */
  function Refresh(s: Sprite, m: Option<ParamMaps.ParamMap>): (r: Result<Sprite>)
    ensures m.None? ==> r == Success(s)
    ensures m.Some? && r.Success? ==>
      forall v | v in ParamMaps.Values(m.value) :: v in GlslFilterParams(r.value)
    ensures m.Some? && r.Success? && s.filters.Some? ==>
      forall g | Shader(g) in FilterList(r.value) :: Obj(g.param) in ParamMaps.Values(m.value)
    ensures m.Some? && r.Success? ==> |s.loading| <= |r.value.loading| && r.value.loading[..|s.loading|] == s.loading
  {
    match m
    case None => Success(s)
    case Some(pm) =>
      var values := ParamMaps.Values(pm);
      var c := Clean(s, values);
      var r := Assort(c, values);
      if r.Success? then
        AssortCoversEveryValue(c, values);
        assert s.filters.Some? ==> forall g | Shader(g) in FilterList(r.value) :: Obj(g.param) in values by {
          if s.filters.Some? {
            forall g | Shader(g) in FilterList(r.value)
              ensures Obj(g.param) in values
            {
              CountZeroIffAbsent(c.filters.value, Shader(g));
            }
          }
        }
        r
      else r
  }

  /**
   * `Sprite_Battler.updateGLSLFilters()`, up to the per-filter `update`.
   * `battler` is `None` when the sprite has no battler, and otherwise the
   * battler's parameter map, itself `None` when the battler has none (a
   * battler created before the plugin was installed). Without a battler
   * the list is emptied; a battler without a map leaves the sprite as it
   * is; otherwise the battler's map drives the refresh.
   */
  function BattlerRefresh(s: Sprite, battler: Option<Option<ParamMaps.ParamMap>>): (r: Result<Sprite>)
    ensures battler.None? ==> r == Success(s.(filters := Some([])))
    ensures battler == Some(None) ==> r == Success(s)
    ensures battler.Some? ==> r == Refresh(s, battler.value)
    ensures battler.Some? && battler.value.Some? && r.Success? ==>
      forall v | v in ParamMaps.Values(battler.value.value) :: v in GlslFilterParams(r.value)
  {
    if battler.None? then Success(s.(filters := Some([]))) else Refresh(s, battler.value)
  }

  // ---------------------------------------------------------------------------
  // Properties

  /** After assorting, every map value is the parameter of an active or a loading filter. */
  lemma AssortCoversEveryValue(s: Sprite, values: seq<Value>)
    requires Assort(s, values).Success?
    ensures forall v | v in values :: v in GlslFilterParams(Assort(s, values).value)
  {
    var covered := GlslFilterParams(s);
    var r := Assort(s, values).value;
    AssortFromStarts(s, covered, values);
    var started := r.loading[|s.loading|..];
    assert r.loading == s.loading + started;
    forall v | v in values
      ensures v in GlslFilterParams(r)
    {
      if v in covered {
        if exists g | g in GlslFilters(s) :: g.param == v.id {
          var g :| g in GlslFilters(s) && g.param == v.id;
          assert g in GlslFilters(r);
        } else {
          var g :| g in s.loading && g.param == v.id;
          assert g in r.loading;
        }
      } else {
        assert v in Seqs.Filter(values, NotIn(covered));
        assert v in ParamsOf(started);
        var g :| g in started && g.param == v.id;
        assert g in r.loading;
      }
    }
  }

  /**
   * With distinct map values, assorting starts exactly one filter for each
   * value no active or loading filter covers, and none for the others.
   */
  lemma AssortOnePerUncovered(s: Sprite, values: seq<Value>, v: Value)
    requires Distinct(values) && Assort(s, values).Success?
    ensures var r := Assort(s, values).value;
      Count(ParamsOf(r.loading[|s.loading|..]), v) ==
        if v in values && v !in GlslFilterParams(s) then 1 else 0
  {
    var covered := GlslFilterParams(s);
    AssortFromStarts(s, covered, values);
    FilterCount(values, NotIn(covered), v);
    if v in values {
      DistinctCount(values, v);
    } else {
      CountZeroIffAbsent(values, v);
    }
  }

  /** Reconciling twice against the same map does nothing the first pass has not done. */
  lemma RefreshIsIdempotent(s: Sprite, m: ParamMaps.ParamMap)
    requires Refresh(s, Some(m)).Success?
    ensures Refresh(Refresh(s, Some(m)).value, Some(m)) == Refresh(s, Some(m))
  {
    var values := ParamMaps.Values(m);
    var c := Clean(s, values);
    var r := Assort(c, values).value;
    assert r.filters == c.filters;
    assert Clean(r, values) == r by {
      if r.filters.Some? {
        var fs := r.filters.value;
        assert fs == Seqs.Filter(s.filters.value, KeepIn(values));
        forall i | 0 <= i < |fs|
          ensures KeepIn(values)(fs[i])
        {
          assert fs[i] in fs;
        }
        FilterAllKept(fs, KeepIn(values));
      }
    }
    AssortCoversEveryValue(c, values);
    AllCoveredAssortsNothing(r, GlslFilterParams(r), values);
  }

  /** When every value is already covered, the assort loop leaves the sprite as it is. */
  lemma AllCoveredAssortsNothing(s: Sprite, covered: seq<Value>, vs: seq<Value>)
    requires forall v | v in vs :: v in covered
    ensures AssortFrom(s, covered, vs) == Success(s)
  {
    var r := AssortFrom(s, covered, vs);
    AssortFromStarts(s, covered, vs);
    var l := r.value.loading;
    assert |ParamsOf(l[|s.loading|..])| == 0;
    assert l == l[..|s.loading|];
  }

  /**
   * Completing the load of a loading filter moves it from the loading list
   * into `filters`: the set of covered parameters stays the same.
   */
  lemma LoadKeepsCoverage(s: Sprite, f: ShaderFilter, v: Value)
    requires f in s.loading
    ensures v in GlslFilterParams(OnFilterLoaded(s, f)) <==> v in GlslFilterParams(s)
  {
    var r := OnFilterLoaded(s, f);
    var fs := FilterList(s);
    var out := r.filters.value;
    forall g
      ensures g in GlslFilters(r) <==> g in GlslFilters(s) || g == f
    {
      CountZeroIffAbsent(out, Shader(g));
      CountZeroIffAbsent(fs, Shader(g));
    }
    forall g
      ensures g in r.loading <==> g in s.loading && g != f
    {
      if g != f {
        CountZeroIffAbsent(r.loading, g);
        CountZeroIffAbsent(s.loading, g);
      }
    }
  }

  /** Shader filters leave `filters` only by cleaning, and only when their parameter left the map. */
  lemma CleanKeepsLiveShaders(s: Sprite, values: seq<Value>, g: ShaderFilter)
    requires s.filters.Some? && Shader(g) in s.filters.value
    ensures Shader(g) in Clean(s, values).filters.value <==> Obj(g.param) in values
  {
    var r := Clean(s, values).filters.value;
    CountZeroIffAbsent(r, Shader(g));
    CountZeroIffAbsent(s.filters.value, Shader(g));
  }

  // ---------------------------------------------------------------------------
  // Helper lemmas

  lemma ParamsOfAppend(a: seq<ShaderFilter>, b: seq<ShaderFilter>)
    ensures ParamsOf(a + b) == ParamsOf(a) + ParamsOf(b)
  {
  }
}

=== FILE: wrappers.dfy ===
/** Failure-carrying wrappers shared by the other modules. */
module Wrappers {

  /** Some value, or nothing (a JavaScript `undefined`/`null` result, an absent option). */
  datatype Option<+T> = None | Some(value: T) {

    /** The wrapped value, or `default` when there is none. */
    function GetOr(default: T): T {
      match this
      case Some(v) => v
      case None => default
    }
  }

  /** A computation that either succeeds or raises the error the JavaScript code would throw. */
  datatype Result<+R> = Success(value: R) | Failure(error: string)
}
